=== FILE: README.md ===
# Listing classification of a real-estate results scraper

This project models, in Dafny, how the scraper turns the articles of a
search-results page into properties.

- **Sale type.** A sale is classified as off the plan, auction, tender,
  negotiation, private treaty at given prices, contact agent, no caption
  found, or unparsed. A rental is classified as a rent at given prices,
  negotiation, under application, or unparsed.
- **Status flag.** The model determines whether a listing is "under
  contract" (sales) or "under application" (rentals).
- **Property type.** It is read from the slug of the listing's link
  (`/property-house-...`). Rural listings use a separate, stricter table.
- **Features.** The bedrooms, bathrooms and car spaces come from the
  listing's features block.
- **Page checks.** The model covers the "no results" page, the article
  count against the range the page announces, and the address text.
- **Dispatch.** Each article is scraped according to its
  `data-content-type`, for sales (`PageScraper.create_properties`) and for
  rentals (`RentalsScraper.create_properties`).

HTML navigation is not modelled. Each caption, attribute or block the
scraper looks up becomes a field of a datatype, and None means "not found".
Python exceptions become `Err` values of `Errors.ScrapeError`. Where a
scraper performs several steps, the model performs them in the source's
order, so the first step to fail decides the error.

Regular expressions are modelled as explicit scans:

- Prices use two patterns, `$` first. `re.findall` scans for `\$\d+(,\d+)*`.
  Only when that finds nothing does it scan for `\d+(,\d+)*`. Each scan
  takes the leftmost match and resumes after it.
- Keyword tests are `re.match` with case ignored.
- The status phrases follow `.*(...)` up to the first newline.
- The slug pattern `\w+\+?\w*\+?\w*\+?\w*` is a greedy scan.
- The range pattern `(\d+) - (\d+)` is a leftmost search.

Files:

| file | module | models |
|---|---|---|
| wrappers.dfy | Wrappers | Option and Result |
| errors.dfy | Errors | the exceptions the scrapers raise |
| text.dfy | Text | character classes, ASCII lower-casing, decimal values, `int()` |
| prices.dfy | Prices | `extract_prices`, `text_to_prices`, the two `MIN_PRICE` floors |
| price_text.dfy | PriceText | printed prices read back (round trips) |
| price_letters.dfy | PriceLetters | prices depend only on digits, `$` and `,` |
| captions.dfy | Captions | `find_sale_type_text`, `check_if_under_special`, `check_for_match` |
| sale_types.dfy | SaleTypes | `deduce_sale_type`, `check_for_sale_by_negotiation`, `deduce_rental_type` |
| sale_examples.dfy | SaleExamples | the captions and types the repository's tests record |
| property_types.dfy | PropertyTypes | `get_property_type_text`, `extract_property_type`, the rural table |
| features.dfy | Features | `parse_property_features`, `maybe_extract_property_features`, `extract_property_features`, `create_property_details` |
| page.dfy | Page | `check_for_no_results`, `num_articles_check`, `find_address_text` |
| articles.dfy | Articles | the per-kind scrapers and both `create_properties` |

`extract_prices` applies the floor only when the text holds no `$` price,
so `"$99 per week"` yields `[99]`. `Prices.ExtractPrices` states this.

The repository's tests disagree with the code in one place. The test
of a rental property expects a complete property. In the code,
`scrape_rental_property` calls `find_and_parse_address`, and that function
always raises. The model follows the code: `Articles.ScrapeRental` always
fails.

## Model

| member | source | states |
|---|---|---|
| Prices.ExtractPrices | page_scraper.py:384-399 | The result is never an empty list. With a `$` price in the text, every `$` price is returned in order and no floor applies. Otherwise the result is the bare numbers that reach the floor, in text order, and it is None exactly when every bare number is below the floor. |
| Prices.AtLeast | page_scraper.py:393 | The filter keeps only prices at or above the floor, and every one of them. |
| Prices.AtLeastCounts | page_scraper.py:393 | Each price at or above the floor is kept as often as it occurs, so repeats survive. |
| Prices.AtLeastAppend | page_scraper.py:393 | Filtering a concatenation is concatenating the filtered parts, so the order of the prices is kept. |
| Prices.AtLeastOne | page_scraper.py:393 | One price is kept exactly when it reaches the floor. With `AtLeastAppend`, this fixes the filter on every list. |
| Prices.MatchStarts | page_scraper.py:411-417 | The matches start exactly at the positions where a price can begin and that no earlier match covers. They come left to right without overlap. The prices are the values of those matches, in order. |
| PriceText.DollarPricesRoundTrip | page_scraper.py:384-399 | Any non-empty list of prices, printed with `$` and thousands commas and separated by digit-free text, is read back exactly, whatever the floor. |
| PriceText.BarePricesRoundTrip | page_scraper.py:384-399 | With no `$` before a digit, a list of printed bare numbers gives back exactly those that reach the floor, in order and with repeats. If none does, the result is None. The separators must hold no digit and must not start with a comma. |
| PriceText.BarePriceRoundTrip | page_scraper.py:384-399 | A single printed number without `$` is returned exactly when it reaches the floor; otherwise the result is None. |
| PriceText.NoDigitsNoPrices | page_scraper.py:384-399 | A text without digits yields None at any floor. |
| PriceLetters.ExtractPricesSkeleton | page_scraper.py:384-399 | Two texts that agree on the positions and values of digits, `$` and `,` yield the same prices. |
| PriceLetters.ExtractPricesLower | page_scraper.py:384-399 | The prices do not depend on the case of the text. |
| Captions.FindSaleTypeText | page_scraper.py:323-341 | The price caption's title is preferred. With no price, type or contact-agent caption, the result is the sentinel text. |
| Captions.FindSaleTypeTextPrefers | page_scraper.py:323-341 | The sale-type text is the first caption present in the order: title, price text, directly nested type caption, contact-agent caption. With none present it is the sentinel. |
| Captions.SaleTypeTextIgnoresNestedType | page_scraper.py:323-341 | A type caption nested deeper than a direct child never changes the sale-type text. |
| Captions.CheckForMatch | page_scraper.py:441-445 | A status pattern matches exactly when one of its phrases occurs, in any case, at a position with no newline before it. |
| Captions.FirstLineDecides | page_scraper.py:441-445 | Text after the first newline never changes whether the pattern matches. |
| Captions.CheckForMatchLower | page_scraper.py:8 | The phrase search ignores case. |
| Captions.MaybeCheckForMatch | page_scraper.py:434-439 | An absent caption never matches. |
| Captions.CheckIfUnderSpecial | page_scraper.py:424-432 | The flag is set exactly when the type caption at any depth, or the price caption's text, matches. The title is not searched. |
| Captions.AbsentCaptionsNotSpecial | page_scraper.py:429-432 | Without a type caption and a price caption the flag is never set. |
| Captions.NoUnNoMatch | page_scraper.py:8 | A text without the letters "un" in sequence, in any case, is never under contract or application. |
| Captions.UnderContractExample | test/test_page_scraper.py:83-93 | "Under Contract" is under contract. |
| Captions.UnderContractLaterExample | test/test_page_scraper.py:83-93 | "Prop is under contract" is under contract. |
| Captions.NotUnderContractExample | test/test_page_scraper.py:83-93 | "Auction on 10/10/10" is not under contract. |
| SaleTypes.DeduceSaleType | page_scraper.py:355-373 | An off-plan listing is off the plan and carries its prices. Every type that has the flag carries the caller's flag. A private treaty carries exactly the extracted prices. Only the sentinel text gives "no caption". |
| SaleTypes.DeduceSaleTypeByPriority | page_scraper.py:355-373 | Apart from off-plan listings, the type is the outcome of the first rule that fires in the order auction, tender, negotiation, prices, contact agent, sentinel. Otherwise it is a parse failure. |
| SaleTypes.KeywordBeatsPrices | page_scraper.py:355-373 | A leading auction, tender or negotiation keyword pre-empts any price in the text. |
| SaleTypes.DeduceSaleTypeLower | page_scraper.py:355-373 | The sale type does not depend on the case of the text, apart from the sentinel. |
| SaleTypes.IsNegotiationPhrases | page_scraper.py:375-382 | A text counts as negotiation exactly when it begins, in any case, with one of "by negotiation", "price by negotiation", "by negotiaton" or "by negotation". |
| SaleTypes.NegotiationLower | page_scraper.py:375-382 | The negotiation test ignores case. |
| SaleTypes.DeduceRentalType | rentals_scraper.py:62-73 | Any `$` price, or a bare price at or above the rental floor, gives a rent. The flag is carried through. "Under application" appears only when the flag is set. An unparsed rental keeps its text and is never flagged. |
| SaleTypes.DeduceRentalTypeByPriority | rentals_scraper.py:62-73 | The rental type is the outcome of the first rule that fires in the order prices, negotiation, under application. Otherwise it is a parse failure that keeps the text. |
| SaleTypes.RentalSentinel | rentals_scraper.py:62-73 | The rental chain has no sentinel step. With no caption found, a rental is under application or unparsed. |
| SaleTypes.DollarPricesAgree | rentals_scraper.py:63-67 | With a `$` price and no keyword, a sale and a rental read the same prices, since the two floors play no part. |
| SaleExamples.TenderExample | test/test_page_scraper.py:171-196 | "Tenders Thursday 1st September" with the flag is a tender under contract. |
| SaleExamples.KeywordCaseExamples | test/test_page_scraper.py:171-196 | "AUCTION 10 Sept 2016", "Auction" and "tender" give the recorded types. |
| SaleExamples.PriceByNegotiationExample | test/test_page_scraper.py:171-196 | "Price by negotiation" is a negotiation. |
| SaleExamples.MisspeltNegotiationExample | test/test_page_scraper.py:171-196 | "by Negotiaton" is a negotiation. |
| SaleExamples.ContactAgentExample | test/test_page_scraper.py:171-196 | "Contact Agent" is contact agent. |
| SaleExamples.SentinelExample | test/test_page_scraper.py:171-196 | The sentinel text gives "no caption". |
| SaleExamples.EmptyTextExamples | test/test_page_scraper.py:171-196 | An empty text is a parse failure, or off the plan with no prices. |
| SaleExamples.DollarPriceExample | test/test_page_scraper.py:171-196 | "$4,999,000+" is a private treaty at 4999000. |
| SaleExamples.BarePriceExample | test/test_page_scraper.py:171-196 | "995,000" is a private treaty at 995000. |
| SaleExamples.OffPlanExample | test/test_page_scraper.py:171-196 | "$799,990" off the plan keeps the price. |
| SaleExamples.DollarRentExamples | test/test_rentals_scraper.py:24-34 | "$400" and "$99 per week" are rents at 400 and 99. |
| SaleExamples.FloorsDiffer | test/test_rentals_scraper.py:24-34 | "400" is a rent but not a sale price. |
| SaleExamples.RentBelowFloorExample | test/test_rentals_scraper.py:36-52 | "20" is below the rental floor and is unparsed, keeping the text. |
| PropertyTypes.SlugEnd | page_scraper.py:252-255 | The greedy slug scan stops at the first character that is neither a word character nor an allowed `+`. It never takes more than the allowed number of `+`. |
| PropertyTypes.ExtractSlug | page_scraper.py:252-255 | A slug exists exactly when the link begins with `/property-` followed by a word character. |
| PropertyTypes.SlugIsLongest | page_scraper.py:252-255 | The slug is the longest run of word characters and `+` after the prefix that holds at most three `+`. |
| PropertyTypes.SlugRoundTrip | page_scraper.py:252-255 | A valid slug placed in a link is read back, whatever follows it that cannot extend it. |
| PropertyTypes.FourthPlusEndsSlug | page_scraper.py:252-255 | A fourth `+` ends the slug. |
| PropertyTypes.ClassifySlug | page_scraper.py:219-250 | A slug in the fifteen-entry table gives the table's type. Any other slug gives "not supported", keeping the slug and its link. |
| PropertyTypes.ExtractPropertyType | page_scraper.py:219-250 | It fails exactly when the link has no slug, and the error names the link. Otherwise the result is the slug's type. |
| PropertyTypes.HouseExample | page_scraper.py:219-255 | A `/property-house-...` link is a house. |
| PropertyTypes.NoSlugExample | page_scraper.py:252-255 | A link of another shape has no type. |
| PropertyTypes.ClassifyRuralSlug | page_scraper.py:189-204 | On the rural path the eight rural slugs give the rural type and `lifestyle` is not supported. Every other slug is an error naming the slug. |
| PropertyTypes.RuralNarrowing | page_scraper.py:189-204 | `other` is "not specified" in general but rural on the rural path. `house` is refused on the rural path. |
| PropertyTypes.ExtractRuralPropertyType | page_scraper.py:186-204 | A rural link without a slug fails like any link. Otherwise the rural table decides. |
| Features.ParseValues | page_scraper.py:283-286 | All values parse exactly when each one reads as an integer, and the results are those integers in order. Otherwise the error names the first value that does not parse. |
| Features.Zip | page_scraper.py:287 | The pairs stop at the shorter list. |
| Features.ToMap | page_scraper.py:287 | The keys are exactly the names of the pairs. |
| Features.LastPairWins | page_scraper.py:287 | A name given twice keeps the value of its last pair. |
| Features.ParsePropertyFeatures | page_scraper.py:280-288 | It fails exactly when some value is not an integer, and the error names the first such value. Otherwise the keys are exactly the lower-cased names that have a value. |
| Text.ParseIntSpaced | page_scraper.py:283-286 | `int()` reads a number through any white space around it, the Unicode white space included; the white space is every `str.isspace` character other than U+001C–U+001F. |
| Text.NoBreakSpaceExample | page_scraper.py:283-286 | A value cell "3" followed by a no-break space, which `get_text()` makes of `&nbsp;`, reads as 3. |
| Text.FileSeparatorNotStripped | page_scraper.py:283-286 | A value cell that begins with the separator U+001C is not an integer: `int()` does not strip it, although `str.isspace` accepts it. |
| Features.FeatureFromLastName | page_scraper.py:280-288 | A feature's value is the integer paired with the last name that lower-cases to it. |
| Features.MaybeExtractFeatures | page_scraper.py:264-269 | A missing block gives no features. |
| Features.ExtractFeatures | page_scraper.py:276-278 | A missing block is an error. |
| Features.CreatePropertyDetails | page_scraper.py:290-299 | Bedrooms, bathrooms and car spaces are present exactly when the features name them, and then they hold the features' values. The areas are never filled in. |
| Features.DetailsFromBlock | page_scraper.py:280-299 | End to end, the bedrooms, bathrooms and car spaces of the details are the values paired with the last `dt` that reads as that name in any case. |
| Page.CheckForNoResults | page_scraper.py:20-41 | True exactly on the page with the form and its "no results" block. False exactly on a page without the form but with results. Any other page is not understood. |
| Page.FormHidesResults | page_scraper.py:20-41 | A form without the "no results" block is not understood even when results exist. |
| Page.FindRange | page_scraper.py:73 | The leftmost match of `(\d+) - (\d+)` is found whenever one exists. |
| Page.NumArticlesCheck | page_scraper.py:66-82 | A page without the range fails. Otherwise the check passes exactly when `hi - lo + 1` equals the article count, and the error names both counts. |
| Page.RangeRoundTrip | page_scraper.py:73-75 | A printed range after digit-free text is read back as its two numbers. |
| Page.NumArticlesRoundTrip | page_scraper.py:66-82 | On such a text the check passes exactly when the count is `hi - lo + 1`. |
| Page.PageRangeExample | page_scraper.py:66-82 | "Showing 1 - 24 of 120" fits 24 articles and not 23. |
| Page.NoDigitsNoRange | page_scraper.py:66-82 | A text without digits announces no range. |
| Page.FindAddressText | page_scraper.py:456-472 | The address is the image `alt` of the photo viewer when present, else that of the property image. A present container without the `alt` is an error. With neither container present, the address is not found. |
| Page.PhotoviewerDecides | page_scraper.py:456-472 | When the photo viewer is present the property image plays no part, not even as a fallback. |
| Articles.ResidentialSaleType | page_scraper.py:304-311 | An off-plan listing is off the plan at the prices of the chosen caption. Any other listing takes the outcome of the first sale rule that fires on the caption `find_sale_type_text` picks. The flag is always the "under contract" search of the captions. |
| Articles.ScrapeResidential | page_scraper.py:111-122 | It succeeds exactly when the type, the features and the address are all found. Each failing step returns its own error, and the first failing step in the order slug, features, address decides. The details are built from the slug's type and the features. |
| Articles.ScrapeLand | page_scraper.py:124-134 | A missing features block is allowed. Otherwise the first failing step in the order features, slug, address decides, with its own error, so a bad feature value fails before the type is read. The details are built from the type and the features, if any. |
| Articles.ScrapeRural | page_scraper.py:183-212 | It succeeds exactly when the rural table accepts the slug and the features and address are found. Otherwise the first failing step in the order rural type, features, address decides, with its own error: a slug outside the rural table gives the error naming the slug. The details are built from the rural type and the features, if any. |
| Articles.ScrapeChild | page_scraper.py:147-165 | A project child's sale type comes from its own price text and is never off the plan. Its type, features and address must all be found, and the first of them to fail decides the error. Its details are built from its type and features. |
| Articles.ScrapeChildren | page_scraper.py:136-168 | A project scrapes exactly when each child does, giving one property per child in order. Otherwise the first failing child decides the error. |
| Articles.ProjectEntries | page_scraper.py:91-95 | A project gives one property per child, in child order, or the first failing child's error. |
| Articles.ScrapeArticle | page_scraper.py:84-109 | Residential articles use the residential scraper. Packages use it off the plan. Land and rural articles use their own scrapers. A project gives its children's properties in order. Any other content type gives one not-supported entry. |
| Articles.CreateProperties | page_scraper.py:84-109 | The page scrapes exactly when every article does, with as many entries as the articles give. Otherwise the first failing article decides the error. |
| Articles.CreatePropertiesAppend | page_scraper.py:84-109 | Scraping two runs of articles in sequence equals scraping them together: the entries concatenate and the first error wins. |
| Articles.ProjectExpands | page_scraper.py:84-109 | A page of one project expands to one property per child, in child order. It fails exactly when a child does, with the first failing child's error. |
| Articles.UnsupportedOnly | page_scraper.py:105-108 | A page of unsupported articles gives one not-supported entry per article, in order. |
| Articles.PackageIsOffPlanResidential | page_scraper.py:170-181 | A house and land package succeeds or fails exactly as the residential scraper does. It differs only in its off-plan sale type. |
| Articles.MissingFeaturesByKind | page_scraper.py:124-134 | Without a features block a land listing scrapes with no rooms, while a residential listing fails. |
| Articles.LandReadsFeaturesFirst | page_scraper.py:124-134 | With a bad feature value and a bad link, land reports the feature and residential reports the link. |
| Articles.RuralSlugGivesRural | page_scraper.py:189-194 | Every recognised rural slug gives the rural type. |
| Articles.RentalSaleType | rentals_scraper.py:48-55 | The rental type is the outcome of the first rental rule that fires on the caption `find_sale_type_text` picks, with the "under application" search of the captions as the flag. An unparsed rental keeps the caption text. |
| Articles.ScrapeRental | rentals_scraper.py:36-46 | A rental article never scrapes. A missing slug is reported first. Then a missing features block, or a feature value that is not an integer, gives the features error. Only when both succeed is the error that of the withdrawn address step. |
| Articles.RentalCreateProperties | rentals_scraper.py:23-34 | A rentals page succeeds exactly when it holds no rental article, giving one not-supported entry per article in order. Otherwise the first rental article's error is the result. |

## Left out

- HTML parsing and navigation (BeautifulSoup `find`, `find_all`, `get_text`) are not modelled. Each lookup is a field of the input datatypes. The AttributeError, TypeError or KeyError the source raises on a missing intermediate node is folded into the step's error.
- The missing `listingInfo`, `vcard` or `propertyStats` blocks and a missing `href` are not modelled. Every listing is assumed to have them.
- A missing `data-content-type` attribute raises KeyError in both `create_properties` (page_scraper.py:87, rentals_scraper.py:26). `Article.contentType` is always present, so that case is not modelled.
- A missing `resultsInfo` div or its `p` raises AttributeError in `num_articles_check`. `Page.NumArticlesCheck` takes the text as always present, so that case is not modelled.
- `html_to_soup`, `no_results_check`, `find_articles`, `get_ds_contents` and `get_results` are not modelled. They are parsing and printing around the modelled checks.
- `check_for_missed_prices` only prints a notice, so it is not modelled.
- `scrape_pages` and `scrape_page` are not modelled. They loop over pages and print progress.
- sales_scraper.py is not part of this model. It only drives pages.
- The `real_estate_property` classes are not part of this model. Properties, details, sale types and property types are plain datatypes here. The state and postcode fields they fill are not modelled.
- Regular expressions are modelled on ASCII only. Python's `\d`, `\w` and case-insensitive matching also accept other Unicode digits, letters and case pairs.
- `Text.ParseInt` models `int()` on ASCII digits with an optional sign and surrounding white space. The white space is every `str.isspace` character other than U+001C–U+001F. It does not accept underscores between digits or non-ASCII digits. It has no limit on the number of digits, where Python 3.7.14+, 3.8.14+, 3.9.14+ and 3.10.7+ reject more than 4300 digits.
- `Text.Lower` lower-cases ASCII letters only, while `str.lower()` on the feature names lower-cases all of Unicode and can change a name's length. The three names looked up (`bedrooms`, `bathrooms`, `car spaces`) are ASCII, so their lookups are unaffected.
- Patterns with a global `(?i)` flag after their start are modelled as Python 3.6-3.10 reads them: the whole pattern ignores case. Python 3.11 and later reject such patterns with `re.error`. They are `UNDER_CONTRACT_REGEX` and `UNDER_APPLICATION_REGEX` (trailing `(?i)`), and `'^(?i)auction'`, `'^(?i)tender'` and `'^(?i)contact agent'` in `deduce_sale_type`. On Python 3.11 or later, `deduce_sale_type` would raise on every listing that is not off the plan; `SaleTypes.DeduceSaleType` does not model that.
- `PropertyTypes.ClassifySlug` keeps the link's `href` in `PropertyTypeNotSupported`. The source keeps the page node that holds the link.
- A project article without its `project-child-listings` block makes `scrape_new_apartment_project` raise AttributeError. `Article.children` is always a list, so the model cannot represent that case.
- `Articles.ScrapeChild` takes the price text of a project child as given. A child without the price span makes the source fail, and that case is not modelled.
- `Articles.ScrapeRental`: `scrape_rental_property` never builds a property, because `find_and_parse_address` always raises. So the model has no rental `Property` value, and rental assembly is left out.

=== FILE: articles.dfy ===
/** Turning the articles of a results page into properties: one scraper per
    kind of article, chosen by the article's `data-content-type`, with the
    steps of each in the order the source takes them, so that the first
    step to fail decides the error. */
module Articles {
  import opened Wrappers
  import opened Errors
  import opened Prices
  import opened Captions
  import opened SaleTypes
  import opened PropertyTypes
  import opened Features
  import opened Page

  /** The `listingInfo` block of an article: its `propertyStats` captions,
      the link of its `vcard` name, and its features block when present. */
  datatype ListingInfo = ListingInfo(stats: PropertyStats, href: string, features: Option<FeatureBlock>)

  /** A child listing of a new apartment project: its price text, its link,
      its features block, and where its address text comes from. */
  datatype ProjectChild = ProjectChild(priceText: string, href: string, features: Option<FeatureBlock>, address: AddressSources)

  /** An article of a results page. `children` matters only to projects. */
  datatype Article = Article(
    contentType: string,
    listing: ListingInfo,
    address: AddressSources,
    children: seq<ProjectChild>)

  /** A scraped property: how it is sold, what it is, and its address. */
  datatype Property = Property(saleType: SaleType, details: Details, address: string)

  /** What an article contributes to the result. */
  datatype Entry =
    | Listed(property: Property)
    | DataContentTypeNotSupported(contentType: string)

  const ResidentialKind: string := "residential"
  const ProjectKind: string := "new apartment project"
  const LandKind: string := "residential land"
  const PackageKind: string := "house land package"
  const RuralKind: string := "rural"
  const RentalKind: string := "rental"

  predicate IsSaleKind(kind: string) {
    kind in {ResidentialKind, ProjectKind, LandKind, PackageKind, RuralKind}
  }

  // ---------------------------------------------------------------------
  // Sale type of a listing

  /** `residential_sale_type`: the sale-type caption read with the "under
      contract" flag of the captions. */
  function ResidentialSaleType(stats: PropertyStats, offPlan: bool): (r: SaleType)
    ensures offPlan ==> r == OffPlan(ExtractPrices(FindSaleTypeText(stats), SaleMinPrice),
                                     CheckIfUnderSpecial(stats, UnderContractPhrases))
    ensures !offPlan ==> r == SaleByPriority(FindSaleTypeText(stats), CheckIfUnderSpecial(stats, UnderContractPhrases))
    ensures r.HasFlag() ==> r.underContract == CheckIfUnderSpecial(stats, UnderContractPhrases)
    ensures r == UnableToFindSaleTypeText ==> FindSaleTypeText(stats) == Sentinel
  {
    DeduceSaleTypeByPriority(FindSaleTypeText(stats), CheckIfUnderSpecial(stats, UnderContractPhrases));
    DeduceSaleType(FindSaleTypeText(stats), CheckIfUnderSpecial(stats, UnderContractPhrases), offPlan)
  }

  // ---------------------------------------------------------------------
  // One scraper per kind

  /** `scrape_residential_property` (`offPlan` false) and
      `scrape_house_land_package` (`offPlan` true): type, features and
      address must all be found, in that order. */
  function ScrapeResidential(a: Article, offPlan: bool): (r: Result<Property, ScrapeError>)
    ensures r.Ok? <==> && ExtractPropertyType(a.listing.href).Ok?
                       && ExtractFeatures(a.listing.features).Ok?
                       && FindAddressText(a.address).Ok?
    ensures ExtractPropertyType(a.listing.href).Err? ==> r == Err(PropertyTypeTextNotFound(a.listing.href))
    ensures ExtractPropertyType(a.listing.href).Ok? && a.listing.features.None? ==> r == Err(PropertyFeaturesNotFound)
    ensures ExtractPropertyType(a.listing.href).Ok? && ExtractFeatures(a.listing.features).Err? ==>
              r == Err(ExtractFeatures(a.listing.features).error)
    ensures ExtractPropertyType(a.listing.href).Ok? && ExtractFeatures(a.listing.features).Ok? && FindAddressText(a.address).Err?
            ==> r == Err(FindAddressText(a.address).error)
    ensures r.Ok? ==> && r.value.saleType == ResidentialSaleType(a.listing.stats, offPlan)
                      && r.value.details == CreatePropertyDetails(ExtractPropertyType(a.listing.href).value,
                                                                  ExtractFeatures(a.listing.features).value)
                      && Ok(r.value.address) == FindAddressText(a.address)
  {
    var saleType := ResidentialSaleType(a.listing.stats, offPlan);
    var propertyType :- ExtractPropertyType(a.listing.href);
    var features :- ExtractFeatures(a.listing.features);
    var address :- FindAddressText(a.address);
    Ok(Property(saleType, CreatePropertyDetails(propertyType, features), address))
  }

  /** `scrape_residential_land`: the features block may be missing, and it
      is read before the type. */
  function ScrapeLand(a: Article): (r: Result<Property, ScrapeError>)
    ensures r.Ok? <==> && MaybeExtractFeatures(a.listing.features).Ok?
                       && ExtractPropertyType(a.listing.href).Ok?
                       && FindAddressText(a.address).Ok?
    ensures MaybeExtractFeatures(a.listing.features).Err? ==> r == Err(MaybeExtractFeatures(a.listing.features).error)
    ensures MaybeExtractFeatures(a.listing.features).Ok? && ExtractPropertyType(a.listing.href).Err? ==>
              r == Err(PropertyTypeTextNotFound(a.listing.href))
    ensures MaybeExtractFeatures(a.listing.features).Ok? && ExtractPropertyType(a.listing.href).Ok? && FindAddressText(a.address).Err?
            ==> r == Err(FindAddressText(a.address).error)
    ensures r.Ok? ==> && r.value.saleType == ResidentialSaleType(a.listing.stats, false)
                      && r.value.details == CreatePropertyDetails(ExtractPropertyType(a.listing.href).value,
                                                                  MaybeExtractFeatures(a.listing.features).value)
                      && Ok(r.value.address) == FindAddressText(a.address)
  {
    var saleType := ResidentialSaleType(a.listing.stats, false);
    var features :- MaybeExtractFeatures(a.listing.features);
    var propertyType :- ExtractPropertyType(a.listing.href);
    var address :- FindAddressText(a.address);
    Ok(Property(saleType, CreatePropertyDetails(propertyType, features), address))
  }

  /** `scrape_rural_property`: the slug goes through the rural table, and
      the features block may be missing. */
  function ScrapeRural(a: Article): (r: Result<Property, ScrapeError>)
    ensures r.Ok? <==> && ExtractRuralPropertyType(a.listing.href).Ok?
                       && MaybeExtractFeatures(a.listing.features).Ok?
                       && FindAddressText(a.address).Ok?
    ensures ExtractRuralPropertyType(a.listing.href).Err? ==> r == Err(ExtractRuralPropertyType(a.listing.href).error)
    ensures ExtractRuralPropertyType(a.listing.href).Ok? && MaybeExtractFeatures(a.listing.features).Err? ==>
              r == Err(MaybeExtractFeatures(a.listing.features).error)
    ensures ExtractRuralPropertyType(a.listing.href).Ok? && MaybeExtractFeatures(a.listing.features).Ok? && FindAddressText(a.address).Err?
            ==> r == Err(FindAddressText(a.address).error)
    ensures r.Ok? ==> && r.value.saleType == ResidentialSaleType(a.listing.stats, false)
                      && r.value.details == CreatePropertyDetails(ExtractRuralPropertyType(a.listing.href).value,
                                                                  MaybeExtractFeatures(a.listing.features).value)
                      && Ok(r.value.address) == FindAddressText(a.address)
  {
    var saleType := ResidentialSaleType(a.listing.stats, false);
    var propertyType :- ExtractRuralPropertyType(a.listing.href);
    var features :- MaybeExtractFeatures(a.listing.features);
    var address :- FindAddressText(a.address);
    Ok(Property(saleType, CreatePropertyDetails(propertyType, features), address))
  }

  /** One child of a project: its own price text, read neither under
      contract nor off the plan, then type, features and address. */
  function ScrapeChild(c: ProjectChild): (r: Result<Property, ScrapeError>)
    ensures r.Ok? <==> && ExtractPropertyType(c.href).Ok?
                       && ExtractFeatures(c.features).Ok?
                       && FindAddressText(c.address).Ok?
    ensures ExtractPropertyType(c.href).Err? ==> r == Err(PropertyTypeTextNotFound(c.href))
    ensures ExtractPropertyType(c.href).Ok? && ExtractFeatures(c.features).Err? ==> r == Err(ExtractFeatures(c.features).error)
    ensures ExtractPropertyType(c.href).Ok? && ExtractFeatures(c.features).Ok? && FindAddressText(c.address).Err? ==>
              r == Err(FindAddressText(c.address).error)
    ensures r.Ok? ==> && r.value.saleType == DeduceSaleType(c.priceText, false, false)
                      && !r.value.saleType.OffPlan?
                      && r.value.details == CreatePropertyDetails(ExtractPropertyType(c.href).value,
                                                                  ExtractFeatures(c.features).value)
                      && Ok(r.value.address) == FindAddressText(c.address)
  {
    var saleType := DeduceSaleType(c.priceText, false, false);
    var propertyType :- ExtractPropertyType(c.href);
    var features :- ExtractFeatures(c.features);
    var address :- FindAddressText(c.address);
    Ok(Property(saleType, CreatePropertyDetails(propertyType, features), address))
  }

  /** `scrape_new_apartment_project`: every child in order; the first child
      that fails decides the error. */
  function ScrapeChildren(cs: seq<ProjectChild>): (r: Result<seq<Property>, ScrapeError>)
    ensures r.Ok? <==> forall i :: 0 <= i < |cs| ==> ScrapeChild(cs[i]).Ok?
    ensures r.Ok? ==> |r.value| == |cs| && forall i :: 0 <= i < |cs| ==> r.value[i] == ScrapeChild(cs[i]).value
    ensures r.Err? ==> exists i :: && 0 <= i < |cs| && ScrapeChild(cs[i]) == Err(r.error)
                                   && forall j :: 0 <= j < i ==> ScrapeChild(cs[j]).Ok?
  {
    if |cs| == 0 then Ok([])
    else
      var first :- ScrapeChild(cs[0]);
      var rest :- ScrapeChildren(cs[1..]);
      Ok([first] + rest)
  }

  function AsEntries(ps: seq<Property>): (r: seq<Entry>)
    ensures |r| == |ps| && forall i :: 0 <= i < |ps| ==> r[i] == Listed(ps[i])
  {
    seq(|ps|, i requires 0 <= i < |ps| => Listed(ps[i]))
  }

  // ---------------------------------------------------------------------
  // `PageScraper.create_properties`

  /** How many entries an article that scrapes cleanly contributes. */
  function EntryCount(a: Article): nat {
    if a.contentType == ProjectKind then |a.children| else 1
  }

  /** The one entry of an article scraped as a single property, or the
      scraper's error. */
  function Single(p: Result<Property, ScrapeError>): (r: Result<seq<Entry>, ScrapeError>)
    ensures r.Ok? <==> p.Ok?
    ensures r.Ok? ==> r.value == [Listed(p.value)]
    ensures r.Err? ==> r.error == p.error
  {
    if p.Ok? then Ok([Listed(p.value)]) else Err(p.error)
  }

  /** The entries of a project: one property per child, in order, or the
      first failing child's error. */
  function ProjectEntries(cs: seq<ProjectChild>): (r: Result<seq<Entry>, ScrapeError>)
    ensures r.Ok? <==> forall i :: 0 <= i < |cs| ==> ScrapeChild(cs[i]).Ok?
    ensures r.Ok? ==> |r.value| == |cs| && forall i :: 0 <= i < |cs| ==> r.value[i] == Listed(ScrapeChild(cs[i]).value)
    ensures r.Err? ==> r.error == ScrapeChildren(cs).error
  {
    var ps :- ScrapeChildren(cs);
    Ok(AsEntries(ps))
  }

  /** The entries of one article, chosen by its content type: residential
      and package listings by the residential scraper (a package off the
      plan), land and rural listings by their own scrapers, a project by
      its children in order, and any other kind as not supported. */
  function ScrapeArticle(a: Article): (r: Result<seq<Entry>, ScrapeError>)
    ensures a.contentType == ResidentialKind ==> r == Single(ScrapeResidential(a, false))
    ensures a.contentType == PackageKind ==> r == Single(ScrapeResidential(a, true))
    ensures a.contentType == LandKind ==> r == Single(ScrapeLand(a))
    ensures a.contentType == RuralKind ==> r == Single(ScrapeRural(a))
    ensures a.contentType == ProjectKind ==> r == ProjectEntries(a.children)
    ensures !IsSaleKind(a.contentType) ==> r == Ok([DataContentTypeNotSupported(a.contentType)])
    ensures r.Ok? ==> |r.value| == EntryCount(a)
    ensures r.Ok? && IsSaleKind(a.contentType) ==> forall i :: 0 <= i < |r.value| ==> r.value[i].Listed?
  {
    var kind := a.contentType;
    if kind == ResidentialKind then Single(ScrapeResidential(a, false))
    else if kind == ProjectKind then ProjectEntries(a.children)
    else if kind == LandKind then Single(ScrapeLand(a))
    else if kind == PackageKind then Single(ScrapeResidential(a, true))
    else if kind == RuralKind then Single(ScrapeRural(a))
    else Ok([DataContentTypeNotSupported(kind)])
  }

  /** Total entries of articles that all scrape cleanly. */
  function TotalCount(articles: seq<Article>): nat {
    if |articles| == 0 then 0 else EntryCount(articles[0]) + TotalCount(articles[1..])
  }

  /** The entries of all articles, in order. The first article that fails
      decides the error; nothing is returned for the others. */
  function CreateProperties(articles: seq<Article>): (r: Result<seq<Entry>, ScrapeError>)
    ensures r.Ok? <==> forall i :: 0 <= i < |articles| ==> ScrapeArticle(articles[i]).Ok?
    ensures r.Ok? ==> |r.value| == TotalCount(articles)
    ensures r.Err? ==> exists i :: && 0 <= i < |articles| && ScrapeArticle(articles[i]) == Err(r.error)
                                   && forall j :: 0 <= j < i ==> ScrapeArticle(articles[j]).Ok?
  {
    if |articles| == 0 then Ok([])
    else
      var first :- ScrapeArticle(articles[0]);
      var rest :- CreateProperties(articles[1..]);
      Ok(first + rest)
  }

  /** The entries of two steps run one after the other: the first error
      wins, otherwise the entries concatenate. */
  function Then(a: Result<seq<Entry>, ScrapeError>, b: Result<seq<Entry>, ScrapeError>): Result<seq<Entry>, ScrapeError> {
    if a.Err? then a else if b.Err? then b else Ok(a.value + b.value)
  }

  lemma ThenAssociative(a: Result<seq<Entry>, ScrapeError>, b: Result<seq<Entry>, ScrapeError>, c: Result<seq<Entry>, ScrapeError>)
    ensures Then(Then(a, b), c) == Then(a, Then(b, c))
  {
    if a.Ok? && b.Ok? && c.Ok? {
      assert (a.value + b.value) + c.value == a.value + (b.value + c.value);
    }
  }

  lemma CreatePropertiesStep(articles: seq<Article>)
    requires |articles| > 0
    ensures CreateProperties(articles) == Then(ScrapeArticle(articles[0]), CreateProperties(articles[1..]))
  {
  }

  /** Scraping two runs of articles one after the other is scraping them
      together: the entries concatenate, and the first run's error comes
      before the second's. */
  lemma {:induction false} CreatePropertiesAppend(xs: seq<Article>, ys: seq<Article>)
    ensures CreateProperties(xs + ys) == Then(CreateProperties(xs), CreateProperties(ys))
    decreases |xs|
  {
    if |xs| == 0 {
      assert xs + ys == ys;
      var e: seq<Entry> := [];
      if CreateProperties(ys).Ok? {
        assert e + CreateProperties(ys).value == CreateProperties(ys).value;
      }
    } else {
      assert (xs + ys)[0] == xs[0];
      assert (xs + ys)[1..] == xs[1..] + ys;
      CreatePropertiesStep(xs + ys);
      CreatePropertiesStep(xs);
      CreatePropertiesAppend(xs[1..], ys);
      ThenAssociative(ScrapeArticle(xs[0]), CreateProperties(xs[1..]), CreateProperties(ys));
    }
  }

  /** A page of articles of unsupported kinds scrapes to one not-supported
      entry per article, in order. */
  lemma {:induction false} UnsupportedOnly(articles: seq<Article>)
    requires forall i :: 0 <= i < |articles| ==> !IsSaleKind(articles[i].contentType)
    ensures CreateProperties(articles).Ok?
    ensures |CreateProperties(articles).value| == |articles|
            && forall i :: 0 <= i < |articles| ==>
                 CreateProperties(articles).value[i] == DataContentTypeNotSupported(articles[i].contentType)
  {
    if |articles| > 0 {
      UnsupportedOnly(articles[1..]);
      var rest := CreateProperties(articles[1..]).value;
      assert CreateProperties(articles).value == [DataContentTypeNotSupported(articles[0].contentType)] + rest;
      forall i | 0 < i < |articles|
        ensures CreateProperties(articles).value[i] == DataContentTypeNotSupported(articles[i].contentType)
      {
        assert articles[1..][i - 1] == articles[i];
      }
    }
  }

  /** A page holding one new apartment project expands to one property
      per child, in child order; the first failing child fails the page. */
  lemma ProjectExpands(a: Article)
    requires a.contentType == ProjectKind
    ensures CreateProperties([a]).Ok? <==> forall i :: 0 <= i < |a.children| ==> ScrapeChild(a.children[i]).Ok?
    ensures CreateProperties([a]).Ok? ==>
              && |CreateProperties([a]).value| == |a.children|
              && forall i :: 0 <= i < |a.children| ==>
                   CreateProperties([a]).value[i] == Listed(ScrapeChild(a.children[i]).value)
    ensures CreateProperties([a]).Err? ==>
              exists i :: && 0 <= i < |a.children| && ScrapeChild(a.children[i]) == Err(CreateProperties([a]).error)
                          && forall j :: 0 <= j < i ==> ScrapeChild(a.children[j]).Ok?
  {
    CreatePropertiesStep([a]);
    assert [a][1..] == [];
    var r := ScrapeArticle(a);
    if r.Ok? {
      assert r.value + [] == r.value;
    }
  }

  // ---------------------------------------------------------------------
  // Relations between the kinds

  /** A house and land package is scraped as a residential listing that is
      off the plan: it succeeds or fails alike, and only the sale type
      differs. */
  lemma PackageIsOffPlanResidential(a: Article)
    ensures ScrapeResidential(a, true).Ok? <==> ScrapeResidential(a, false).Ok?
    ensures ScrapeResidential(a, true).Err? ==> ScrapeResidential(a, true) == ScrapeResidential(a, false)
    ensures ScrapeResidential(a, true).Ok? ==>
              var p := ScrapeResidential(a, true).value;
              var q := ScrapeResidential(a, false).value;
              && p.details == q.details && p.address == q.address
              && p.saleType == OffPlan(ExtractPrices(FindSaleTypeText(a.listing.stats), SaleMinPrice),
                                       CheckIfUnderSpecial(a.listing.stats, UnderContractPhrases))
  {
  }

  /** Without a features block a land listing still scrapes, with no rooms
      recorded, while a residential listing fails. */
  lemma MissingFeaturesByKind(a: Article)
    requires a.listing.features.None?
    requires ExtractPropertyType(a.listing.href).Ok? && FindAddressText(a.address).Ok?
    ensures ScrapeLand(a).Ok?
    ensures var d := ScrapeLand(a).value.details;
            d.bedrooms.None? && d.bathrooms.None? && d.garageSpaces.None?
    ensures ScrapeResidential(a, false) == Err(PropertyFeaturesNotFound)
  {
  }

  /** A land listing reads its features before its link: with both broken,
      the features decide the error, while a residential listing reports
      the link. */
  lemma LandReadsFeaturesFirst(a: Article)
    requires a.listing.features.Some? && ParsePropertyFeatures(a.listing.features.value).Err?
    requires ExtractPropertyType(a.listing.href).Err?
    ensures ScrapeLand(a) == ParsePropertyFeatures(a.listing.features.value).PropagateFailure()
    ensures ScrapeResidential(a, false) == Err(PropertyTypeTextNotFound(a.listing.href))
  {
  }

  /** On the rural path every recognised rural slug gives the rural type. */
  lemma RuralSlugGivesRural(a: Article)
    requires ExtractSlug(a.listing.href).Some? && ExtractSlug(a.listing.href).value in RuralSlugs
    requires MaybeExtractFeatures(a.listing.features).Ok? && FindAddressText(a.address).Ok?
    ensures ScrapeRural(a).Ok? && ScrapeRural(a).value.details.propertyType == Rural
  {
  }

  // ---------------------------------------------------------------------
  // `RentalsScraper`

  /** `rental_sale_type`: the sale-type caption read with the "under
      application" flag of the captions. */
  function RentalSaleType(stats: PropertyStats): (r: RentalType)
    ensures r == RentalByPriority(FindSaleTypeText(stats), CheckIfUnderSpecial(stats, UnderApplicationPhrases))
    ensures r == RentalUnderApplication ==> CheckIfUnderSpecial(stats, UnderApplicationPhrases)
    ensures r.RentalTypeParseFailed? ==> r.text == FindSaleTypeText(stats)
  {
    DeduceRentalTypeByPriority(FindSaleTypeText(stats), CheckIfUnderSpecial(stats, UnderApplicationPhrases));
    DeduceRentalType(FindSaleTypeText(stats), CheckIfUnderSpecial(stats, UnderApplicationPhrases))
  }

  /** `scrape_rental_property`: the sale type, type and features are read
      as for a sale, but the address step has been withdrawn and always
      fails, so no rental article ever scrapes. */
  function ScrapeRental(a: Article): (r: Result<Property, ScrapeError>)
    ensures r.Err?
    ensures ExtractPropertyType(a.listing.href).Err? ==> r.error == PropertyTypeTextNotFound(a.listing.href)
    ensures ExtractPropertyType(a.listing.href).Ok? && a.listing.features.None? ==> r.error == PropertyFeaturesNotFound
    ensures ExtractPropertyType(a.listing.href).Ok? && ExtractFeatures(a.listing.features).Err? ==>
              r.error == ExtractFeatures(a.listing.features).error
    ensures ExtractPropertyType(a.listing.href).Ok? && ExtractFeatures(a.listing.features).Ok? ==>
              r.error == AddressParsingDeprecated
  {
    var _ := RentalSaleType(a.listing.stats);
    var _ :- ExtractPropertyType(a.listing.href);
    var _ :- ExtractFeatures(a.listing.features);
    Err(AddressParsingDeprecated)
  }

  /** `RentalsScraper.create_properties`: rental articles are scraped, every
      other article becomes a not-supported entry. */
  function RentalCreateProperties(articles: seq<Article>): (r: Result<seq<Entry>, ScrapeError>)
    ensures r.Ok? <==> forall i :: 0 <= i < |articles| ==> articles[i].contentType != RentalKind
    ensures r.Ok? ==> |r.value| == |articles|
                      && forall i :: 0 <= i < |articles| ==>
                           r.value[i] == DataContentTypeNotSupported(articles[i].contentType)
    ensures r.Err? ==> exists i :: && 0 <= i < |articles| && articles[i].contentType == RentalKind
                                   && r.error == ScrapeRental(articles[i]).error
                                   && forall j :: 0 <= j < i ==> articles[j].contentType != RentalKind
  {
    if |articles| == 0 then Ok([])
    else
      var a := articles[0];
      // A rental article never scrapes: its error is the result.
      if a.contentType == RentalKind then Err(ScrapeRental(a).error)
      else
        var rest :- RentalCreateProperties(articles[1..]);
        Ok([DataContentTypeNotSupported(a.contentType)] + rest)
  }
}

=== FILE: captions.dfy ===
/** The captions of a listing's `propertyStats` block: which one supplies
    the sale-type text, and whether a status phrase such as "under
    contract" appears in one of them. Each caption node is reduced to the
    text it holds, or None when the node is absent. */
module Captions {
  import opened Wrappers
  import opened Text

  /** The `p.priceText` caption: its `title` attribute, when it has one,
      and its text. */
  datatype PriceCaption = PriceCaption(title: Option<string>, text: string)

  /** The captions of one `propertyStats` block. `typeChild` is the
      `p.type` caption found among the direct children only; `typeAnywhere`
      is the first `p.type` caption at any depth. */
  datatype PropertyStats = PropertyStats(
    price: Option<PriceCaption>,
    typeChild: Option<string>,
    typeAnywhere: Option<string>,
    contactAgent: Option<string>)

  /** What `find_sale_type_text` returns when no caption is present. */
  const Sentinel: string := "UnableToFindSaleTypeText"

  // ---------------------------------------------------------------------
  // Choosing the sale-type text

  /** The captions in the order they are preferred. */
  function Candidates(ps: PropertyStats): (cs: seq<Option<string>>)
    ensures |cs| == 4
  {
    [ if ps.price.Some? then ps.price.value.title else None,
      if ps.price.Some? then Some(ps.price.value.text) else None,
      ps.typeChild,
      ps.contactAgent ]
  }

  /** The first present value of a list, or the default when none is:
      an independent statement of "first preference wins". */
  function FirstPresent(cs: seq<Option<string>>, default: string): (r: string)
    ensures (forall i :: 0 <= i < |cs| ==> cs[i].None?) ==> r == default
    ensures forall i :: 0 <= i < |cs| && cs[i].Some? && (forall j :: 0 <= j < i ==> cs[j].None?)
              ==> r == cs[i].value
    decreases |cs|
  {
    if |cs| == 0 then default
    else if cs[0].Some? then cs[0].value
    else FirstPresent(cs[1..], default)
  }

  /** `find_sale_type_text`: the price caption's title, else its text, else
      the directly nested type caption, else the contact-agent caption,
      else the sentinel. */
  function FindSaleTypeText(ps: PropertyStats): (r: string)
    ensures ps.price.Some? && ps.price.value.title.Some? ==> r == ps.price.value.title.value
    ensures ps.price.None? && ps.typeChild.None? && ps.contactAgent.None? ==> r == Sentinel
  {
    if ps.price.Some? && ps.price.value.title.Some? then ps.price.value.title.value
    else if ps.price.Some? then ps.price.value.text
    else if ps.typeChild.Some? then ps.typeChild.value
    else if ps.contactAgent.Some? then ps.contactAgent.value
    else Sentinel
  }

  /** The chain of `find_sale_type_text` is exactly "first present caption
      in order of preference". */
  lemma FindSaleTypeTextPrefers(ps: PropertyStats)
    ensures FindSaleTypeText(ps) == FirstPresent(Candidates(ps), Sentinel)
  {
    var cs := Candidates(ps);
    if ps.price.Some? && ps.price.value.title.Some? {
      assert cs[0].Some?;
    } else if ps.price.Some? {
      assert cs[0].None? && cs[1].Some?;
    } else if ps.typeChild.Some? {
      assert cs[0].None? && cs[1].None? && cs[2].Some?;
    } else if ps.contactAgent.Some? {
      assert cs[0].None? && cs[1].None? && cs[2].None? && cs[3].Some?;
    } else {
      assert forall i :: 0 <= i < |cs| ==> cs[i].None?;
    }
  }

  /** A type caption nested deeper than a direct child, and the status
      phrase search that sees it, never supply the sale-type text. */
  lemma SaleTypeTextIgnoresNestedType(ps: PropertyStats, t: Option<string>)
    ensures FindSaleTypeText(ps.(typeAnywhere := t)) == FindSaleTypeText(ps)
  {
  }

  // ---------------------------------------------------------------------
  // Status phrases: `re.match('.*(p1|p2)', text, re.IGNORECASE)`

  /** The phrases of `UNDER_CONTRACT_REGEX`. */
  const UnderContractPhrases: seq<string> := ["under contract", "under offer"]
  /** The phrase of `UNDER_APPLICATION_REGEX`. */
  const UnderApplicationPhrases: seq<string> := ["under application"]

  /** One of the phrases begins at position `q` of `t`, up to ASCII case. */
  predicate PhraseAt(t: string, q: nat, phrases: seq<string>)
    requires q <= |t|
  {
    exists i :: 0 <= i < |phrases| && StartsWithCI(t[q..], phrases[i])
  }

  /** `.` matches any character but a newline: no newline in `t[p..q]`. */
  predicate NoNewline(t: string, p: nat, q: nat)
    requires p <= q <= |t|
  {
    forall m :: p <= m < q ==> t[m] != '\n'
  }

  /** The search from position `p`: `.*` reaches some `q` without crossing
      a newline and a phrase begins there. */
  function SearchFrom(t: string, phrases: seq<string>, p: nat): (r: bool)
    requires p <= |t|
    ensures r <==> exists q :: p <= q <= |t| && NoNewline(t, p, q) && PhraseAt(t, q, phrases)
    decreases |t| - p
  {
    if PhraseAt(t, p, phrases) then
      assert NoNewline(t, p, p);
      true
    else if p < |t| && t[p] != '\n' then
      var r := SearchFrom(t, phrases, p + 1);
      assert r ==> exists q :: p <= q <= |t| && NoNewline(t, p, q) && PhraseAt(t, q, phrases) by {
        if r {
          var q :| p + 1 <= q <= |t| && NoNewline(t, p + 1, q) && PhraseAt(t, q, phrases);
          assert NoNewline(t, p, q);
        }
      }
      assert (exists q :: p <= q <= |t| && NoNewline(t, p, q) && PhraseAt(t, q, phrases)) ==> r by {
        if exists q :: p <= q <= |t| && NoNewline(t, p, q) && PhraseAt(t, q, phrases) {
          var q :| p <= q <= |t| && NoNewline(t, p, q) && PhraseAt(t, q, phrases);
          assert q != p;
          assert NoNewline(t, p + 1, q);
        }
      }
      r
    else
      false
  }

  /** `check_for_match(text, regex)`: a phrase occurs, up to ASCII case,
      before the first newline of the text. */
  function CheckForMatch(t: string, phrases: seq<string>): (r: bool)
    ensures r <==> exists q :: 0 <= q <= |t| && NoNewline(t, 0, q) && PhraseAt(t, q, phrases)
  {
    SearchFrom(t, phrases, 0)
  }

  /** `maybe_check_for_match`: an absent caption does not match. */
  function MaybeCheckForMatch(caption: Option<string>, phrases: seq<string>): (r: bool)
    ensures r <==> caption.Some? && CheckForMatch(caption.value, phrases)
  {
    match caption
    case None => false
    case Some(t) => CheckForMatch(t, phrases)
  }

  /** `check_if_under_special`: the type caption (at any depth) or the
      price caption's text holds the phrase. The price caption's title is
      not consulted. */
  function CheckIfUnderSpecial(ps: PropertyStats, phrases: seq<string>): (r: bool)
    ensures r <==> (ps.typeAnywhere.Some? && CheckForMatch(ps.typeAnywhere.value, phrases))
                   || (ps.price.Some? && CheckForMatch(ps.price.value.text, phrases))
  {
    var searches := [ps.typeAnywhere, if ps.price.Some? then Some(ps.price.value.text) else None];
    MaybeCheckForMatch(searches[0], phrases) || MaybeCheckForMatch(searches[1], phrases)
  }

  /** With neither a type caption nor a price caption there is nothing to
      search, whatever the phrases. */
  lemma AbsentCaptionsNotSpecial(ps: PropertyStats, phrases: seq<string>)
    requires ps.typeAnywhere.None? && ps.price.None?
    ensures !CheckIfUnderSpecial(ps, phrases)
  {
  }

  // ---------------------------------------------------------------------
  // Properties of the phrase search

  lemma {:induction false} NoNewlinePrefix(a: string, b: string, q: nat)
    requires q <= |a| && NoNewline(a, 0, q)
    ensures NoNewline(a + b, 0, q)
  {
    forall m | 0 <= m < q ensures (a + b)[m] != '\n' {
      assert (a + b)[m] == a[m];
    }
  }

  lemma PhraseAtLonger(a: string, b: string, q: nat, phrases: seq<string>)
    requires q <= |a| && PhraseAt(a, q, phrases)
    ensures PhraseAt(a + b, q, phrases)
  {
    var i :| 0 <= i < |phrases| && StartsWithCI(a[q..], phrases[i]);
    var p := phrases[i];
    assert (a + b)[q..][..|p|] == a[q..][..|p|];
    assert StartsWithCI((a + b)[q..], p);
  }

  /** A phrase free of newlines matches only text free of newlines. */
  lemma PhraseAvoidsNewline(t: string, q: nat, p: string)
    requires q <= |t| && StartsWithCI(t[q..], p)
    requires forall m :: 0 <= m < |p| ==> p[m] != '\n'
    ensures forall m :: q <= m < q + |p| ==> t[m] != '\n'
  {
    forall m | q <= m < q + |p| ensures t[m] != '\n' {
      assert Lower(t[q..][..|p|])[m - q] == LowerChar(t[m]);
    }
  }

  /** Only the first line is searched: text after a newline never changes
      the verdict, since `.` does not cross it and no phrase contains one. */
  lemma FirstLineDecides(a: string, b: string, phrases: seq<string>)
    requires forall m :: 0 <= m < |a| ==> a[m] != '\n'
    requires forall i, m :: 0 <= i < |phrases| && 0 <= m < |phrases[i]| ==> phrases[i][m] != '\n'
    ensures CheckForMatch(a + "\n" + b, phrases) <==> CheckForMatch(a, phrases)
  {
    var t := a + "\n" + b;
    assert t == a + ("\n" + b);
    if CheckForMatch(a, phrases) {
      var q :| 0 <= q <= |a| && NoNewline(a, 0, q) && PhraseAt(a, q, phrases);
      NoNewlinePrefix(a, "\n" + b, q);
      PhraseAtLonger(a, "\n" + b, q, phrases);
    }
    if CheckForMatch(t, phrases) {
      var q :| 0 <= q <= |t| && NoNewline(t, 0, q) && PhraseAt(t, q, phrases);
      assert t[|a|] == '\n';
      assert q <= |a|;
      var i :| 0 <= i < |phrases| && StartsWithCI(t[q..], phrases[i]);
      var p := phrases[i];
      PhraseAvoidsNewline(t, q, p);
      assert q + |p| <= |a|;
      assert a[q..][..|p|] == t[q..][..|p|];
      assert StartsWithCI(a[q..], p);
      assert NoNewline(a, 0, q) by {
        forall m | 0 <= m < q ensures a[m] != '\n' {
        }
      }
    }
  }

  /** Case does not matter: a lower-cased text matches exactly when the
      text does. */
  lemma CheckForMatchLower(t: string, phrases: seq<string>)
    ensures CheckForMatch(Lower(t), phrases) <==> CheckForMatch(t, phrases)
  {
    var l := Lower(t);
    forall q | 0 <= q <= |t|
      ensures NoNewline(l, 0, q) <==> NoNewline(t, 0, q)
      ensures PhraseAt(l, q, phrases) <==> PhraseAt(t, q, phrases)
    {
      forall m | 0 <= m < q ensures l[m] == '\n' <==> t[m] == '\n' {
      }
      assert l[q..] == Lower(t[q..]);
      forall i | 0 <= i < |phrases|
        ensures StartsWithCI(l[q..], phrases[i]) <==> StartsWithCI(t[q..], phrases[i])
      {
        StartsWithCILower(t[q..], phrases[i]);
      }
    }
  }

  // ---------------------------------------------------------------------
  // The recorded examples

  /** "Under Contract" is under contract. */
  lemma UnderContractExample()
    ensures CheckForMatch("Under Contract", UnderContractPhrases)
  {
    var t := "Under Contract";
    assert Lower(t[0..][..14]) == UnderContractPhrases[0];
    assert NoNewline(t, 0, 0) && PhraseAt(t, 0, UnderContractPhrases);
  }

  /** "Prop is under contract" is under contract: the phrase need not begin
      the text. */
  lemma UnderContractLaterExample()
    ensures CheckForMatch("Prop is under contract", UnderContractPhrases)
  {
    var t := "Prop is under contract";
    assert Lower(t[8..][..14]) == UnderContractPhrases[0];
    assert NoNewline(t, 0, 8) && PhraseAt(t, 8, UnderContractPhrases);
  }

  /** A text without the letter pair "un" (in any case) holds no status
      phrase, since every phrase begins with it. */
  lemma NoUnNoMatch(t: string, phrases: seq<string>)
    requires forall i :: 0 <= i < |phrases| ==> |phrases[i]| >= 2 && phrases[i][0] == 'u' && phrases[i][1] == 'n'
    requires forall q :: 0 <= q < |t| - 1 ==> !(LowerChar(t[q]) == 'u' && LowerChar(t[q + 1]) == 'n')
    ensures !CheckForMatch(t, phrases)
  {
    forall q, i | 0 <= q <= |t| && 0 <= i < |phrases| ensures !StartsWithCI(t[q..], phrases[i]) {
      var p := phrases[i];
      if |p| <= |t| - q {
        var w := t[q..][..|p|];
        assert Lower(w)[0] == LowerChar(t[q]) && Lower(w)[1] == LowerChar(t[q + 1]);
      }
    }
  }

  /** "Auction on 10/10/10" is not under contract. */
  lemma NotUnderContractExample()
    ensures !CheckForMatch("Auction on 10/10/10", UnderContractPhrases)
  {
    var t := "Auction on 10/10/10";
    forall q | 0 <= q < |t| - 1 ensures !(LowerChar(t[q]) == 'u' && LowerChar(t[q + 1]) == 'n') {
    }
    NoUnNoMatch(t, UnderContractPhrases);
  }
}

=== FILE: errors.dfy ===
/** The exceptions the scraper raises, one constructor per raise site. */
module Errors {

  datatype ScrapeError =
      /** `RuntimeError('HTML not understood.')` of check_for_no_results */
    | HtmlNotUnderstood
      /** `RuntimeError('Inconsistent number of articles on page: ...')` */
    | InconsistentArticleCount(onPage: int, found: nat)
      /** the `(\d+) - (\d+)` search of the results caption found nothing */
    | ResultsRangeNotFound
      /** the `^/property-...` search of an href found nothing */
    | PropertyTypeTextNotFound(href: string)
      /** `ValueError` for a rural slug outside the two known sets */
    | RuralPropertyTypeNotRecognised(slug: string)
      /** the feature list node is absent where it is required */
    | PropertyFeaturesNotFound
      /** `int()` raised on a feature value */
    | FeatureValueNotInteger(text: string)
      /** an address container lacks its image `alt` text */
    | AddressImageNotFound
      /** `RuntimeError('Could not find address text.')` */
    | AddressTextNotFound
      /** `RuntimeError('This method has been deprecated.')` */
    | AddressParsingDeprecated
}

=== FILE: features.dfy ===
/** The features block of a listing (a `dl` of `dt` names and `dd`
    values, such as `Bedrooms 4`) and the details record built from it. */
module Features {
  import opened Wrappers
  import opened Text
  import opened Errors
  import opened PropertyTypes

  /** The texts of the block's `dt` and `dd` elements, in document order. */
  datatype FeatureBlock = FeatureBlock(names: seq<string>, values: seq<string>)

  type Features = map<string, int>

  /** Every value read by `int()`, left to right; the first that `int()`
      refuses decides the error. */
  function ParseValues(values: seq<string>): (r: Result<seq<int>, ScrapeError>)
    ensures r.Ok? <==> forall i :: 0 <= i < |values| ==> ParseInt(values[i]).Some?
    ensures r.Ok? ==> |r.value| == |values|
                      && forall i :: 0 <= i < |values| ==> Some(r.value[i]) == ParseInt(values[i])
    ensures r.Err? ==> exists i :: && 0 <= i < |values|
                                   && ParseInt(values[i]).None?
                                   && r.error == FeatureValueNotInteger(values[i])
                                   && forall j :: 0 <= j < i ==> ParseInt(values[j]).Some?
  {
    if |values| == 0 then Ok([])
    else
      match ParseInt(values[0])
      case None => Err(FeatureValueNotInteger(values[0]))
      case Some(n) =>
        var rest :- ParseValues(values[1..]);
        Ok([n] + rest)
  }

  /** `zip(names, values)`: pairs up to the shorter list. */
  function Zip(names: seq<string>, values: seq<int>): (r: seq<(string, int)>)
    ensures |r| == (if |names| < |values| then |names| else |values|)
    ensures forall i :: 0 <= i < |r| ==> r[i] == (names[i], values[i])
  {
    var k := if |names| < |values| then |names| else |values|;
    seq(k, i requires 0 <= i < k => (names[i], values[i]))
  }

  /** `dict(pairs)`: every name of a pair is a key, and nothing else is. */
  function ToMap(pairs: seq<(string, int)>): (r: Features)
    ensures forall key :: key in r <==> exists i :: 0 <= i < |pairs| && pairs[i].0 == key
  {
    if |pairs| == 0 then map[]
    else
      var last := pairs[|pairs| - 1];
      var r := ToMap(pairs[..|pairs| - 1])[last.0 := last.1];
      assert forall i :: 0 <= i < |pairs| - 1 ==> pairs[..|pairs| - 1][i] == pairs[i];
      r
  }

  /** The names the source compares against: each `dt` text lower-cased. */
  function LowerNames(names: seq<string>): (r: seq<string>)
    ensures |r| == |names| && forall i :: 0 <= i < |names| ==> r[i] == Lower(names[i])
  {
    seq(|names|, i requires 0 <= i < |names| => Lower(names[i]))
  }

  /** `parse_property_features`: lower-cased names paired with the values
      read as integers. */
  function ParsePropertyFeatures(block: FeatureBlock): (r: Result<Features, ScrapeError>)
    ensures r.Ok? <==> forall i :: 0 <= i < |block.values| ==> ParseInt(block.values[i]).Some?
    ensures r.Ok? ==> forall key :: key in r.value <==>
              exists i :: 0 <= i < |block.names| && i < |block.values| && Lower(block.names[i]) == key
    ensures r.Err? ==> ParseValues(block.values).Err? && r.error == ParseValues(block.values).error
  {
    var values :- ParseValues(block.values);
    Ok(ToMap(Zip(LowerNames(block.names), values)))
  }

  /** `maybe_extract_property_features`: a missing block means no features. */
  function MaybeExtractFeatures(block: Option<FeatureBlock>): (r: Result<Features, ScrapeError>)
    ensures block.None? ==> r == Ok(map[])
    ensures block.Some? ==> r == ParsePropertyFeatures(block.value)
  {
    match block
    case None => Ok(map[])
    case Some(b) => ParsePropertyFeatures(b)
  }

  /** `extract_property_features`: a missing block is an error (the source
      fails on `None.find_all`). */
  function ExtractFeatures(block: Option<FeatureBlock>): (r: Result<Features, ScrapeError>)
    ensures block.None? ==> r == Err(PropertyFeaturesNotFound)
    ensures block.Some? ==> r == ParsePropertyFeatures(block.value)
  {
    match block
    case None => Err(PropertyFeaturesNotFound)
    case Some(b) => ParsePropertyFeatures(b)
  }

  // ---------------------------------------------------------------------
  // Details

  datatype Details = Details(
    propertyType: PropertyType,
    bedrooms: Option<int>,
    bathrooms: Option<int>,
    garageSpaces: Option<int>,
    landArea: Option<int>,
    floorArea: Option<int>)

  /** `features.get(key, None)`. */
  function Get(features: Features, key: string): (r: Option<int>)
    ensures r.Some? <==> key in features
    ensures r.Some? ==> r.value == features[key]
  {
    if key in features then Some(features[key]) else None
  }

  /** `create_property_details`: bedrooms, bathrooms and car spaces looked up
      by name; the areas are never filled in. */
  function CreatePropertyDetails(propertyType: PropertyType, features: Features): (r: Details)
    ensures r.propertyType == propertyType
    ensures r.bedrooms.Some? <==> "bedrooms" in features
    ensures r.bathrooms.Some? <==> "bathrooms" in features
    ensures r.garageSpaces.Some? <==> "car spaces" in features
    ensures "bedrooms" in features ==> r.bedrooms == Some(features["bedrooms"])
    ensures "bathrooms" in features ==> r.bathrooms == Some(features["bathrooms"])
    ensures "car spaces" in features ==> r.garageSpaces == Some(features["car spaces"])
    ensures r.landArea.None? && r.floorArea.None?
  {
    Details(propertyType, Get(features, "bedrooms"), Get(features, "bathrooms"), Get(features, "car spaces"), None, None)
  }

  /** A name given twice keeps the value of its last pair. */
  lemma {:induction false} LastPairWins(pairs: seq<(string, int)>, i: nat)
    requires i < |pairs|
    requires forall j :: i < j < |pairs| ==> pairs[j].0 != pairs[i].0
    ensures pairs[i].0 in ToMap(pairs) && ToMap(pairs)[pairs[i].0] == pairs[i].1
  {
    if i < |pairs| - 1 {
      var front := pairs[..|pairs| - 1];
      assert front[i] == pairs[i];
      assert forall j :: i < j < |front| ==> front[j] == pairs[j];
      LastPairWins(front, i);
    }
  }

  /** The value a feature name gets is the integer of the `dd` paired with
      the last `dt` that reads as that name in lower case. */
  lemma FeatureFromLastName(block: FeatureBlock, i: nat)
    requires forall k :: 0 <= k < |block.values| ==> ParseInt(block.values[k]).Some?
    requires i < |block.names| && i < |block.values|
    requires forall j :: i < j < |block.names| && j < |block.values| ==> Lower(block.names[j]) != Lower(block.names[i])
    ensures var f := ParsePropertyFeatures(block).value;
            Lower(block.names[i]) in f && Some(f[Lower(block.names[i])]) == ParseInt(block.values[i])
  {
    var values := ParseValues(block.values).value;
    var pairs := Zip(LowerNames(block.names), values);
    LastPairWins(pairs, i);
  }

  /** End to end: each room count of the details is the integer of the
      `dd` paired with the last `dt` that reads as its name in any case
      (`bedrooms`, `bathrooms`, `car spaces`). */
  lemma DetailsFromBlock(pt: PropertyType, block: FeatureBlock, i: nat)
    requires forall k :: 0 <= k < |block.values| ==> ParseInt(block.values[k]).Some?
    requires i < |block.names| && i < |block.values|
    requires forall j :: i < j < |block.names| && j < |block.values| ==> Lower(block.names[j]) != Lower(block.names[i])
    ensures var d := CreatePropertyDetails(pt, ParsePropertyFeatures(block).value);
            && (Lower(block.names[i]) == "bedrooms" ==> d.bedrooms == ParseInt(block.values[i]))
            && (Lower(block.names[i]) == "bathrooms" ==> d.bathrooms == ParseInt(block.values[i]))
            && (Lower(block.names[i]) == "car spaces" ==> d.garageSpaces == ParseInt(block.values[i]))
  {
    FeatureFromLastName(block, i);
  }

  /** With no `dt` reading `bedrooms`, the details have no bedrooms. */
  lemma NoBedroomsName(pt: PropertyType, block: FeatureBlock)
    requires forall k :: 0 <= k < |block.values| ==> ParseInt(block.values[k]).Some?
    requires forall i :: 0 <= i < |block.names| && i < |block.values| ==> Lower(block.names[i]) != "bedrooms"
    ensures CreatePropertyDetails(pt, ParsePropertyFeatures(block).value).bedrooms == None
  {
  }
}

=== FILE: page.dfy ===
/** Checks on a whole results page: whether it is the "no results" page,
    whether the article count agrees with the range the page announces,
    and where an article's address text comes from. */
module Page {
  import opened Wrappers
  import opened Text
  import opened Errors
  import opened Prices
  import opened PriceText

  // ---------------------------------------------------------------------
  // `check_for_no_results`

  /** The search form directly under the page's contents, with whether it
      holds the "no results" block directly. */
  datatype SearchForm = SearchForm(hasNoResults: bool)

  /** What the check sees of the page's contents: the form, and whether a
      results block sits directly under the contents. */
  datatype Contents = Contents(form: Option<SearchForm>, hasResults: bool)

  /** True on the "no results" page, false on a page of results; anything
      else is not understood. The form, when present, decides alone. */
  function CheckForNoResults(c: Contents): (r: Result<bool, ScrapeError>)
    ensures r.Ok? <==> (c.form.Some? && c.form.value.hasNoResults) || (c.form.None? && c.hasResults)
    ensures r.Ok? ==> (r.value <==> c.form.Some?)
    ensures r.Err? ==> r.error == HtmlNotUnderstood
  {
    match c.form
    case Some(f) => if f.hasNoResults then Ok(true) else Err(HtmlNotUnderstood)
    case None => if c.hasResults then Ok(false) else Err(HtmlNotUnderstood)
  }

  /** A form without the "no results" block is not understood, even when
      results are present. */
  lemma FormHidesResults()
    ensures CheckForNoResults(Contents(Some(SearchForm(false)), true)).Err?
    ensures CheckForNoResults(Contents(Some(SearchForm(true)), false)) == Ok(true)
    ensures CheckForNoResults(Contents(None, true)) == Ok(false)
  {
  }

  // ---------------------------------------------------------------------
  // `num_articles_check`: `re.search('(\d+) - (\d+)', text)`

  /** The pattern matches at `q`: a run of digits, " - ", and a digit. A
      shorter first run would be followed by a digit, so backtracking adds
      no match. */
  predicate RangeAt(t: string, q: nat) {
    && q < |t| && IsDigit(t[q])
    && var d := RunEnd(t, q);
       d + 3 < |t| && t[d] == ' ' && t[d + 1] == '-' && t[d + 2] == ' ' && IsDigit(t[d + 3])
  }

  /** The two numbers of a match at `q`. */
  function RangeValues(t: string, q: nat): (nat, nat)
    requires RangeAt(t, q)
  {
    var d := RunEnd(t, q);
    (DecimalValue(t[q..d]), DecimalValue(t[d + 3..RunEnd(t, d + 3)]))
  }

  /** The leftmost match at or after `p`. */
  function FindRange(t: string, p: nat): (r: Option<(nat, nat)>)
    requires p <= |t|
    ensures r.Some? <==> exists q :: p <= q < |t| && RangeAt(t, q)
    ensures r.Some? ==> exists q :: && p <= q < |t| && RangeAt(t, q) && r.value == RangeValues(t, q)
                                    && forall q' :: p <= q' < q ==> !RangeAt(t, q')
    decreases |t| - p
  {
    if p == |t| then None
    else if RangeAt(t, p) then Some(RangeValues(t, p))
    else FindRange(t, p + 1)
  }

  /** The number of articles a range `lo - hi` announces. */
  function OnPage(range: (nat, nat)): int {
    range.1 - range.0 + 1
  }

  /** The page announces articles `lo - hi`; it must hold `hi - lo + 1` of
      them. A page without the range fails (the source fails on `None`). */
  function NumArticlesCheck(info: string, articles: nat): (r: Result<(), ScrapeError>)
    ensures FindRange(info, 0).None? ==> r == Err(ResultsRangeNotFound)
    ensures FindRange(info, 0).Some? ==> (r.Ok? <==> OnPage(FindRange(info, 0).value) == articles)
    ensures FindRange(info, 0).Some? && r.Err? ==>
              r.error == InconsistentArticleCount(OnPage(FindRange(info, 0).value), articles)
  {
    var found := FindRange(info, 0);
    if found.None? then Err(ResultsRangeNotFound)
    else if OnPage(found.value) != articles then Err(InconsistentArticleCount(OnPage(found.value), articles))
    else Ok(())
  }

  /** A digit string placed at `j` and not continued by a digit is the run
      that starts at `j`. */
  lemma RunEndOfPlaced(s: string, j: nat, g: string)
    requires Placed(s, j, g) && AllDigits(g)
    requires j + |g| == |s| || !IsDigit(s[j + |g|])
    ensures RunEnd(s, j) == j + |g|
  {
    forall m | j <= m < j + |g| ensures IsDigit(s[m]) {
      assert s[j + (m - j)] == g[m - j];
    }
    RunEndBound(s, j, j + |g|);
  }

  /** How a page writes the range of articles it shows. */
  function RangeText(lo: nat, hi: nat): string {
    ShowNat(lo) + " - " + ShowNat(hi)
  }

  /** The range text `lo - hi` placed at `q` matches there. */
  lemma RangeAtPlaced(s: string, q: nat, lo: nat, hi: nat)
    requires Placed(s, q, RangeText(lo, hi))
    requires q + |RangeText(lo, hi)| == |s| || !IsDigit(s[q + |RangeText(lo, hi)|])
    ensures RangeAt(s, q) && RangeValues(s, q) == (lo, hi)
  {
    var a := ShowNat(lo);
    var b := ShowNat(hi);
    var d := q + |a|;
    assert RangeText(lo, hi) == a + (" - " + b);
    PlacedSplit(s, q, a, " - " + b);
    PlacedSplit(s, d, " - ", b);
    SeparatorAt(s, d);
    DigitsRunAt(s, q, a);
    DigitsRunAt(s, d + 3, b);
    assert RangeAt(s, q);
    RangeValuesAt(s, q, a, b);
    DecimalValueOfShowNat(lo);
    DecimalValueOfShowNat(hi);
  }

  lemma RangeValuesAt(s: string, q: nat, a: string, b: string)
    requires RangeAt(s, q) && AllDigits(a) && AllDigits(b)
    requires RunEnd(s, q) == q + |a| && s[q..q + |a|] == a
    requires var e := q + |a| + 3; RunEnd(s, e) == e + |b| && s[e..e + |b|] == b
    ensures RangeValues(s, q) == (DecimalValue(a), DecimalValue(b))
  {
  }

  lemma SeparatorAt(s: string, d: nat)
    requires Placed(s, d, " - ")
    ensures d + 3 <= |s| && s[d] == ' ' && s[d + 1] == '-' && s[d + 2] == ' '
  {
    assert s[d + 0] == " - "[0] && s[d + 1] == " - "[1] && s[d + 2] == " - "[2];
  }

  /** A non-empty digit string placed at `j`, not continued by a digit, is
      the run there, and is read back as its own value. */
  lemma DigitsRunAt(s: string, j: nat, g: string)
    requires Placed(s, j, g) && AllDigits(g) && |g| > 0
    requires j + |g| == |s| || !IsDigit(s[j + |g|])
    ensures IsDigit(s[j]) && RunEnd(s, j) == j + |g| && s[j..RunEnd(s, j)] == g
  {
    assert s[j + 0] == g[0];
    RunEndOfPlaced(s, j, g);
    PlacedSlice(s, j, g);
  }

  /** The range text `lo - hi` placed after a text without digits is found,
      whatever follows it that does not begin with a digit. */
  lemma RangeRoundTrip(pre: string, lo: nat, hi: nat, post: string)
    requires NoDigits(pre)
    requires |post| == 0 || !IsDigit(post[0])
    ensures FindRange(pre + RangeText(lo, hi) + post, 0) == Some((lo, hi))
  {
    var g := RangeText(lo, hi);
    var s := pre + g + post;
    ConcatParts(pre, g, post);
    if |pre| + |g| < |s| {
      assert s[|pre| + |g|] == post[0];
    }
    RangeFoundAt(s, |pre|, lo, hi);
  }

  lemma RangeFoundAt(s: string, q: nat, lo: nat, hi: nat)
    requires NoDigitsIn(s, 0, q)
    requires Placed(s, q, RangeText(lo, hi))
    requires q + |RangeText(lo, hi)| == |s| || !IsDigit(s[q + |RangeText(lo, hi)|])
    ensures FindRange(s, 0) == Some((lo, hi))
  {
    RangeAtPlaced(s, q, lo, hi);
    forall q' | 0 <= q' < q ensures !RangeAt(s, q') {
      assert !IsDigit(s[q']);
    }
    FindRangeLeftmost(s, q);
  }

  /** The match found is the one at the leftmost position that matches. */
  lemma FindRangeLeftmost(t: string, q: nat)
    requires RangeAt(t, q)
    requires forall q' :: 0 <= q' < q ==> !RangeAt(t, q')
    ensures FindRange(t, 0) == Some(RangeValues(t, q))
  {
    var q0 :| && 0 <= q0 < |t| && RangeAt(t, q0) && FindRange(t, 0).value == RangeValues(t, q0)
              && forall q' :: 0 <= q' < q0 ==> !RangeAt(t, q');
    assert q0 == q;
  }

  /** The count check on such a text passes exactly when the article count
      is `hi - lo + 1`. */
  lemma NumArticlesRoundTrip(pre: string, lo: nat, hi: nat, post: string, articles: nat)
    requires NoDigits(pre)
    requires |post| == 0 || !IsDigit(post[0])
    ensures NumArticlesCheck(pre + RangeText(lo, hi) + post, articles).Ok?
            <==> hi - lo + 1 == articles
  {
    RangeRoundTrip(pre, lo, hi, post);
  }

  /** "Showing 1 - 24 of 120" fits a page of 24 articles and no other. */
  lemma PageRangeExample()
    ensures NumArticlesCheck("Showing " + RangeText(1, 24) + " of 120", 24).Ok?
    ensures NumArticlesCheck("Showing " + RangeText(1, 24) + " of 120", 23).Err?
  {
    NumArticlesRoundTrip("Showing ", 1, 24, " of 120", 24);
    NumArticlesRoundTrip("Showing ", 1, 24, " of 120", 23);
  }

  /** A text with no digits announces no range. */
  lemma NoDigitsNoRange(t: string, articles: nat)
    requires NoDigits(t)
    ensures NumArticlesCheck(t, articles) == Err(ResultsRangeNotFound)
  {
    forall q | 0 <= q < |t| ensures !RangeAt(t, q) {
    }
  }

  // ---------------------------------------------------------------------
  // `find_address_text`

  /** An image container, with the `alt` of the image the source reaches in
      it (None when the link, the image or the attribute is missing). */
  datatype ImageBox = ImageBox(alt: Option<string>)

  /** The photo viewer and the property image of an article, when present. */
  datatype AddressSources = AddressSources(photoviewer: Option<ImageBox>, propertyImage: Option<ImageBox>)

  /** The address is the `alt` of the first container present: the photo
      viewer before the property image. A container that is present but
      lacks the `alt` is an error; the other container is not tried. */
  function FindAddressText(a: AddressSources): (r: Result<string, ScrapeError>)
    ensures r.Ok? ==> (a.photoviewer.Some? && a.photoviewer.value.alt == Some(r.value))
                      || (a.photoviewer.None? && a.propertyImage.Some? && a.propertyImage.value.alt == Some(r.value))
    ensures r.Err? <==> match a.photoviewer
                        case Some(box) => box.alt.None?
                        case None => a.propertyImage.None? || a.propertyImage.value.alt.None?
    ensures a.photoviewer.None? && a.propertyImage.None? ==> r == Err(AddressTextNotFound)
    ensures r.Err? && (a.photoviewer.Some? || a.propertyImage.Some?) ==> r == Err(AddressImageNotFound)
  {
    match (a.photoviewer, a.propertyImage)
    case (Some(box), _) => AltText(box)
    case (None, Some(box)) => AltText(box)
    case (None, None) => Err(AddressTextNotFound)
  }

  function AltText(box: ImageBox): (r: Result<string, ScrapeError>)
    ensures r.Ok? <==> box.alt.Some?
    ensures r.Ok? ==> r.value == box.alt.value
    ensures r.Err? ==> r.error == AddressImageNotFound
  {
    match box.alt
    case Some(t) => Ok(t)
    case None => Err(AddressImageNotFound)
  }

  /** When the photo viewer is present the property image plays no part,
      even when the viewer has no `alt` and the image has one. */
  lemma PhotoviewerDecides(box: ImageBox, p1: Option<ImageBox>, p2: Option<ImageBox>)
    ensures FindAddressText(AddressSources(Some(box), p1)) == FindAddressText(AddressSources(Some(box), p2))
    ensures FindAddressText(AddressSources(Some(ImageBox(None)), Some(ImageBox(Some("1 Main St"))))) == Err(AddressImageNotFound)
  {
  }
}

=== FILE: price_letters.dfy ===
/** The price extractor reads only digits, `$` and `,`: two texts that
    agree on where those characters are, and on what they are, give the
    same prices. In particular the case of the letters never matters. */
module PriceLetters {
  import opened Wrappers
  import opened Text
  import opened Prices

  predicate IsPriceChar(c: char) {
    IsDigit(c) || c == '$' || c == ','
  }

  /** `s` and `u` differ only at positions where neither holds a price
      character. */
  predicate SameSkeleton(s: string, u: string) {
    && |s| == |u|
    && forall i :: 0 <= i < |s| ==> (IsPriceChar(s[i]) || IsPriceChar(u[i]) ==> s[i] == u[i])
  }

  lemma SkeletonAt(s: string, u: string, i: nat)
    requires SameSkeleton(s, u) && i < |s|
    ensures IsDigit(s[i]) <==> IsDigit(u[i])
    ensures s[i] == '$' <==> u[i] == '$'
    ensures s[i] == ',' <==> u[i] == ','
  {
    assert IsPriceChar(s[i]) || IsPriceChar(u[i]) ==> s[i] == u[i];
  }

  lemma {:induction false} RunEndSkeleton(s: string, u: string, j: nat)
    requires SameSkeleton(s, u) && j <= |s|
    ensures RunEnd(s, j) == RunEnd(u, j)
    decreases |s| - j
  {
    if j < |s| {
      SkeletonAt(s, u, j);
      RunEndSkeleton(s, u, j + 1);
    }
  }

  lemma GroupFollowsSkeleton(s: string, u: string, r: nat)
    requires SameSkeleton(s, u)
    ensures GroupFollows(s, r) <==> GroupFollows(u, r)
  {
    if r + 1 < |s| {
      SkeletonAt(s, u, r);
      SkeletonAt(s, u, r + 1);
    }
  }

  lemma {:induction false} GroupEndSkeleton(s: string, u: string, j: nat)
    requires SameSkeleton(s, u) && j < |s| && IsDigit(s[j])
    ensures IsDigit(u[j])
    ensures GroupEnd(s, j) == GroupEnd(u, j)
    decreases |s| - j
  {
    SkeletonAt(s, u, j);
    var d := RunEnd(s, j);
    RunEndSkeleton(s, u, j);
    GroupFollowsSkeleton(s, u, d);
    if GroupFollows(s, d) {
      GroupEndSkeleton(s, u, d + 1);
    }
  }

  lemma TokenSkeleton(s: string, u: string, k: nat, dollar: bool)
    requires SameSkeleton(s, u) && k < |s|
    ensures TokenAt(s, k, dollar) <==> TokenAt(u, k, dollar)
  {
    SkeletonAt(s, u, k);
    if k + 1 < |s| {
      SkeletonAt(s, u, k + 1);
    }
  }

  /** A match covers price characters only, so both texts match the same
      characters there. */
  lemma MatchSkeleton(s: string, u: string, k: nat, dollar: bool)
    requires SameSkeleton(s, u) && TokenAt(s, k, dollar)
    ensures TokenAt(u, k, dollar)
    ensures TokenEnd(s, k, dollar) == TokenEnd(u, k, dollar)
    ensures SpanValue(s, Span(k, TokenEnd(s, k, dollar)), dollar)
            == SpanValue(u, Span(k, TokenEnd(u, k, dollar)), dollar)
  {
    TokenSkeleton(s, u, k, dollar);
    var j := if dollar then k + 1 else k;
    GroupEndSkeleton(s, u, j);
    var e := TokenEnd(s, k, dollar);
    MatchIsPriceChars(s, k, dollar);
    var t := s[k..e];
    forall m | k <= m < e ensures s[m] == u[m] {
      assert t[m - k] == s[m];
      assert IsPriceChar(s[m]);
    }
    assert s[k..e] == u[k..e];
  }

  lemma {:induction false} ValuesSkeleton(s: string, u: string, dollar: bool, k: nat)
    requires SameSkeleton(s, u) && k <= |s|
    ensures ValuesFrom(s, dollar, k) == ValuesFrom(u, dollar, k)
    decreases |s| - k
  {
    if k < |s| {
      TokenSkeleton(s, u, k, dollar);
      if TokenAt(s, k, dollar) {
        MatchSkeleton(s, u, k, dollar);
        ValuesSkeleton(s, u, dollar, TokenEnd(s, k, dollar));
      } else {
        ValuesSkeleton(s, u, dollar, k + 1);
      }
    }
  }

  lemma HasTokenSkeleton(s: string, u: string, dollar: bool)
    requires SameSkeleton(s, u)
    ensures HasToken(s, dollar) <==> HasToken(u, dollar)
  {
    forall k | 0 <= k < |s| ensures TokenAt(s, k, dollar) <==> TokenAt(u, k, dollar) {
      TokenSkeleton(s, u, k, dollar);
    }
  }

  /** `extract_prices` cannot tell apart texts with the same skeleton. */
  lemma ExtractPricesSkeleton(s: string, u: string, floor: int)
    requires SameSkeleton(s, u)
    ensures ExtractPrices(s, floor) == ExtractPrices(u, floor)
  {
    HasTokenSkeleton(s, u, true);
    HasTokenSkeleton(s, u, false);
    ValuesSkeleton(s, u, true, 0);
    ValuesSkeleton(s, u, false, 0);
  }

  /** Lower-casing keeps the skeleton. */
  lemma LowerSameSkeleton(t: string)
    ensures SameSkeleton(Lower(t), t)
  {
  }

  /** Prices do not depend on the case of the text. */
  lemma ExtractPricesLower(t: string, floor: int)
    ensures ExtractPrices(Lower(t), floor) == ExtractPrices(t, floor)
  {
    LowerSameSkeleton(t);
    ExtractPricesSkeleton(Lower(t), t, floor);
  }
}

=== FILE: price_text.dfy ===
/** Prices as the listing pages print them, and the round trip through the
    price extractor: every dollar price in a caption comes back, in order,
    whatever digit-free text surrounds and separates them. */
module PriceText {
  import opened Wrappers
  import opened Text
  import opened Prices

  predicate NoDigits(t: string) {
    forall i :: 0 <= i < |t| ==> !IsDigit(t[i])
  }

  function Pad3(d: nat): (r: string)
    requires d < 1000
    ensures |r| == 3 && AllDigits(r)
  {
    [DigitChar(d / 100), DigitChar(d / 10 % 10), DigitChar(d % 10)]
  }

  /** A price with its thousands grouped by commas: 1000000 is "1,000,000". */
  function Grouped(n: nat): string
    decreases n
  {
    if n < 1000 then ShowNat(n) else Grouped(n / 1000) + "," + Pad3(n % 1000)
  }

  /** Dollar prices joined by a separator: "$279,000 - $900,000". */
  function DollarList(ps: seq<nat>, sep: string): string
    decreases |ps|
  {
    if |ps| == 0 then []
    else if |ps| == 1 then "$" + Grouped(ps[0])
    else "$" + Grouped(ps[0]) + sep + DollarList(ps[1..], sep)
  }

  /** Bare prices joined by a separator: "279,000 to 300,000". */
  function BareList(ps: seq<nat>, sep: string): string
    decreases |ps|
  {
    if |ps| == 0 then []
    else if |ps| == 1 then Grouped(ps[0])
    else Grouped(ps[0]) + sep + BareList(ps[1..], sep)
  }

  /** `g` is, as a whole, a match of `\d+(,\d+)*`. */
  predicate GroupedDigits(g: string) {
    |g| > 0 && forall m :: 0 <= m < |g| ==> GroupChar(g, 0, |g|, m)
  }

  // ---------------------------------------------------------------------
  // Values of the printed forms

  lemma {:induction false} StripConcat(a: string, b: string)
    ensures StripSeparators(a + b) == StripSeparators(a) + StripSeparators(b)
    decreases |a|
  {
    if |a| > 0 {
      assert (a + b)[1..] == a[1..] + b;
      StripConcat(a[1..], b);
    } else {
      assert a + b == b;
    }
  }

  lemma {:induction false} StripDigits(t: string)
    requires AllDigits(t)
    ensures StripSeparators(t) == t
    decreases |t|
  {
    if |t| > 0 {
      StripDigits(t[1..]);
    }
  }

  lemma Pad3Value(d: nat)
    requires d < 1000
    ensures DecimalValue(Pad3(d)) == d
  {
    var p := Pad3(d);
    assert p[..2][..1] == p[..1];
    assert DecimalValue(p[..1]) == d / 100;
    assert DecimalValue(p[..2]) == 10 * (d / 100) + d / 10 % 10;
  }

  /** Stripping the separator of one more thousands group. */
  lemma StripGroup(h: string, p: string)
    requires AllDigits(p)
    ensures StripSeparators(h + "," + p) == StripSeparators(h) + p
  {
    var a := h + ",";
    StripConcat(a, p);
    StripConcat(h, ",");
    StripDigits(p);
    assert ","[1..] == [];
    assert StripSeparators(",") == [];
    assert StripSeparators(a) == StripSeparators(h);
  }

  lemma {:induction false} GroupedValue(n: nat)
    ensures AllDigits(StripSeparators(Grouped(n)))
    ensures DecimalValue(StripSeparators(Grouped(n))) == n
    decreases n
  {
    if n < 1000 {
      StripDigits(ShowNat(n));
      DecimalValueOfShowNat(n);
    } else {
      var h := Grouped(n / 1000);
      var p := Pad3(n % 1000);
      GroupedValue(n / 1000);
      StripGroup(h, p);
      var t := StripSeparators(h);
      DecimalValueConcat(t, p);
      Pad3Value(n % 1000);
      assert DecimalValue(t + p) == (n / 1000) * 1000 + n % 1000;
    }
  }

  lemma {:induction false} GroupedShape(n: nat)
    ensures GroupedDigits(Grouped(n))
    decreases n
  {
    var g := Grouped(n);
    if n < 1000 {
      forall m | 0 <= m < |g| ensures GroupChar(g, 0, |g|, m) {
        assert IsDigit(g[m]);
      }
    } else {
      var h := Grouped(n / 1000);
      var p := Pad3(n % 1000);
      GroupedShape(n / 1000);
      assert g == h + [','] + p;
      assert IsDigit(h[|h| - 1]) by {
        assert GroupChar(h, 0, |h|, |h| - 1);
      }
      forall m | 0 <= m < |g| ensures GroupChar(g, 0, |g|, m) {
        if m < |h| {
          assert GroupChar(h, 0, |h|, m);
          assert g[m] == h[m];
          if m > 0 { assert g[m - 1] == h[m - 1]; }
          if m + 1 < |h| { assert g[m + 1] == h[m + 1]; }
        } else if m == |h| {
          assert g[m + 1] == p[0];
        } else {
          assert g[m] == p[m - |h| - 1];
        }
      }
    }
  }

  // ---------------------------------------------------------------------
  // Text placed at a position of a larger text

  /** `g` occurs in `s` at position `j`. */
  predicate Placed(s: string, j: nat, g: string) {
    j + |g| <= |s| && forall i :: 0 <= i < |g| ==> s[j + i] == g[i]
  }

  /** No character of `s[a..b]` is a digit. */
  predicate NoDigitsIn(s: string, a: nat, b: nat) {
    b <= |s| && forall i :: a <= i < b ==> !IsDigit(s[i])
  }

  lemma PlacedSlice(s: string, j: nat, g: string)
    requires Placed(s, j, g)
    ensures s[j..j + |g|] == g
  {
  }

  lemma PlacedSplit(s: string, k: nat, a: string, b: string)
    requires Placed(s, k, a + b)
    ensures Placed(s, k, a) && Placed(s, k + |a|, b)
  {
    forall i | 0 <= i < |a| ensures s[k + i] == a[i] {
      assert (a + b)[i] == a[i];
    }
    forall i | 0 <= i < |b| ensures s[k + |a| + i] == b[i] {
      assert (a + b)[|a| + i] == b[i];
    }
  }

  /** Where the three parts of `pre + g + post` lie. */
  lemma ConcatParts(pre: string, g: string, post: string)
    ensures Placed(pre + g + post, |pre|, g)
    ensures NoDigits(pre) ==> NoDigitsIn(pre + g + post, 0, |pre|)
    ensures NoDigits(post) ==> NoDigitsIn(pre + g + post, |pre| + |g|, |pre + g + post|)
  {
    var s := pre + g + post;
    forall i | 0 <= i < |g| ensures s[|pre| + i] == g[i] {
    }
    if NoDigits(pre) {
      forall i | 0 <= i < |pre| ensures !IsDigit(s[i]) {
        assert s[i] == pre[i];
      }
    }
    if NoDigits(post) {
      forall i | |pre| + |g| <= i < |s| ensures !IsDigit(s[i]) {
        assert s[i] == post[i - |pre| - |g|];
      }
    }
  }

  // ---------------------------------------------------------------------
  // Where the greedy match of a printed price ends

  lemma {:induction false} RunEndBound(s: string, j: nat, r: nat)
    requires j <= r <= |s| && (r == |s| || !IsDigit(s[r]))
    ensures RunEnd(s, j) <= r
    decreases |s| - j
  {
    if j < r && IsDigit(s[j]) {
      RunEndBound(s, j + 1, r);
    }
  }

  /** The greedy match from `j` is the one that is complete and cannot be
      extended. */
  lemma {:induction false} GroupEndUnique(s: string, j: nat, r: nat)
    requires j < r <= |s| && IsDigit(s[j])
    requires forall m :: j <= m < r ==> GroupChar(s, j, r, m)
    requires r == |s| || !IsDigit(s[r])
    requires !GroupFollows(s, r)
    ensures GroupEnd(s, j) == r
    decreases |s| - j
  {
    var d := RunEnd(s, j);
    RunEndBound(s, j, r);
    if d < r {
      assert GroupChar(s, j, r, d);
      assert GroupFollows(s, d);
      var j' := d + 1;
      forall m | j' <= m < r ensures GroupChar(s, j', r, m) {
        assert GroupChar(s, j, r, m);
      }
      GroupEndUnique(s, j', r);
    }
  }

  /** A grouped number placed at `j` and not continued ends where it was
      placed to end. */
  lemma GroupEndOfGrouped(s: string, j: nat, g: string)
    requires GroupedDigits(g) && Placed(s, j, g)
    requires j + |g| == |s| || !IsDigit(s[j + |g|])
    requires !GroupFollows(s, j + |g|)
    ensures IsDigit(s[j])
    ensures GroupEnd(s, j) == j + |g|
  {
    var r := j + |g|;
    assert GroupChar(g, 0, |g|, 0);
    assert s[j + 0] == g[0];
    forall m | j <= m < r ensures GroupChar(s, j, r, m) {
      assert GroupChar(g, 0, |g|, m - j);
      assert s[j + (m - j)] == g[m - j];
      if m > j { assert s[j + (m - j - 1)] == g[m - j - 1]; }
      if m + 1 < r { assert s[j + (m - j + 1)] == g[m - j + 1]; }
    }
    GroupEndUnique(s, j, r);
  }

  // ---------------------------------------------------------------------
  // Scanning past positions where no match begins

  lemma {:induction false} ValuesSkip(s: string, dollar: bool, k: nat, k': nat)
    requires k <= k' <= |s|
    requires forall i :: k <= i < k' ==> !TokenAt(s, i, dollar)
    ensures ValuesFrom(s, dollar, k) == ValuesFrom(s, dollar, k')
    decreases k' - k
  {
    if k < k' {
      ValuesSkip(s, dollar, k + 1, k');
    }
  }

  /** No dollar token begins in `k..k'` when no digit follows any of its
      positions. */
  lemma SkipNoDigits(s: string, k: nat, k': nat)
    requires k <= k' <= |s| && NoDigitsIn(s, k + 1, if k' < |s| then k' + 1 else |s|)
    ensures ValuesFrom(s, true, k) == ValuesFrom(s, true, k')
  {
    forall i | k <= i < k' ensures !TokenAt(s, i, true) {
      if i + 1 < |s| { assert !IsDigit(s[i + 1]); }
    }
    ValuesSkip(s, true, k, k');
  }

  lemma ValuesAtToken(s: string, dollar: bool, k: nat)
    requires TokenAt(s, k, dollar)
    ensures ValuesFrom(s, dollar, k)
            == [SpanValue(s, Span(k, TokenEnd(s, k, dollar)), dollar)] + ValuesFrom(s, dollar, TokenEnd(s, k, dollar))
  {
  }

  // ---------------------------------------------------------------------
  // One printed price

  /** A bare price placed at `j` is read back as its value. */
  lemma BareMatchValue(s: string, j: nat, n: nat)
    requires Placed(s, j, Grouped(n))
    requires TokenAt(s, j, false) && TokenEnd(s, j, false) == j + |Grouped(n)|
    ensures SpanValue(s, Span(j, j + |Grouped(n)|), false) == n
  {
    PlacedSlice(s, j, Grouped(n));
    GroupedValue(n);
  }

  /** A dollar price, `$` at `k` and the grouped number after it, is read
      back as its value. */
  lemma DollarMatchValue(s: string, k: nat, n: nat)
    requires k < |s| && s[k] == '$' && Placed(s, k + 1, Grouped(n))
    requires TokenAt(s, k, true) && TokenEnd(s, k, true) == k + 1 + |Grouped(n)|
    ensures SpanValue(s, Span(k, k + 1 + |Grouped(n)|), true) == n
  {
    var g := Grouped(n);
    var t := s[k..k + 1 + |g|];
    PlacedSlice(s, k + 1, g);
    assert t[0] == '$' && t[1..] == g;
    assert StripSeparators(t) == StripSeparators(g);
    GroupedValue(n);
  }

  /** A dollar price at `k` that is not continued is the next value. */
  lemma DollarAt(s: string, k: nat, n: nat)
    requires k < |s| && s[k] == '$' && Placed(s, k + 1, Grouped(n))
    requires k + 1 + |Grouped(n)| == |s| || !IsDigit(s[k + 1 + |Grouped(n)|])
    requires !GroupFollows(s, k + 1 + |Grouped(n)|)
    ensures ValuesFrom(s, true, k) == [n] + ValuesFrom(s, true, k + 1 + |Grouped(n)|)
  {
    var g := Grouped(n);
    GroupedShape(n);
    GroupEndOfGrouped(s, k + 1, g);
    ValuesAtToken(s, true, k);
    DollarMatchValue(s, k, n);
  }

  lemma DollarListStart(ps: seq<nat>, sep: string)
    requires |ps| > 0
    ensures |DollarList(ps, sep)| > 1
    ensures DollarList(ps, sep)[0] == '$' && IsDigit(DollarList(ps, sep)[1])
  {
    var g := Grouped(ps[0]);
    GroupedShape(ps[0]);
    assert GroupChar(g, 0, |g|, 0);
    var d := DollarList(ps, sep);
    if |ps| == 1 {
      assert d == "$" + g;
    } else {
      assert d == "$" + g + (sep + DollarList(ps[1..], sep));
    }
    assert d[1] == g[0];
  }

  /** A list of dollar prices placed at `k`, with no digit after it, gives
      back its prices in order. */
  lemma {:induction false} DollarListAt(s: string, k: nat, ps: seq<nat>, sep: string)
    requires |ps| > 0 && NoDigits(sep)
    requires Placed(s, k, DollarList(ps, sep))
    requires NoDigitsIn(s, k + |DollarList(ps, sep)|, |s|)
    ensures ValuesFrom(s, true, k) == ps
    decreases |ps|
  {
    var g := Grouped(ps[0]);
    var r := k + 1 + |g|;
    if |ps| == 1 {
      assert DollarList(ps, sep) == "$" + g;
      PlacedSplit(s, k, "$", g);
      assert s[k + 0] == "$"[0];
      if r + 1 < |s| { assert !IsDigit(s[r + 1]); }
      DollarAt(s, k, ps[0]);
      SkipNoDigits(s, r, |s|);
      assert ps == [ps[0]];
    } else {
      var rest := DollarList(ps[1..], sep);
      var q := r + |sep|;
      assert DollarList(ps, sep) == ("$" + g) + (sep + rest);
      PlacedSplit(s, k, "$" + g, sep + rest);
      PlacedSplit(s, k, "$", g);
      PlacedSplit(s, r, sep, rest);
      assert s[k + 0] == "$"[0];
      DollarListStart(ps[1..], sep);
      assert s[q + 0] == rest[0];
      assert NoDigitsIn(s, r, q + 1) by {
        forall i | r <= i < q ensures !IsDigit(s[i]) {
          assert s[r + (i - r)] == sep[i - r];
        }
      }
      DollarAt(s, k, ps[0]);
      SkipNoDigits(s, r, q);
      DollarListAt(s, q, ps[1..], sep);
    }
  }

  // ---------------------------------------------------------------------
  // The round trips

  /** Every dollar price of a caption comes back, in order and whatever the
      floor, when the surrounding and separating text holds no digit:
      "Price guide $340,000 - $380,000" gives [340000, 380000] and
      "$99 per week" gives [99]. */
  lemma DollarPricesRoundTrip(pre: string, ps: seq<nat>, sep: string, post: string, floor: int)
    requires |ps| > 0 && NoDigits(pre) && NoDigits(sep) && NoDigits(post)
    ensures ExtractPrices(pre + DollarList(ps, sep) + post, floor) == Some(ps)
  {
    var d := DollarList(ps, sep);
    var s := pre + d + post;
    var j := |pre|;
    ConcatParts(pre, d, post);
    DollarListStart(ps, sep);
    assert s[j + 0] == d[0] && s[j + 1] == d[1];
    assert TokenAt(s, j, true);
    SkipNoDigits(s, 0, j);
    DollarListAt(s, j, ps, sep);
  }

  /** A bare price placed at `j` in digit-free text is the only value. */
  lemma BareAt(s: string, j: nat, n: nat)
    requires Placed(s, j, Grouped(n))
    requires NoDigitsIn(s, 0, j) && NoDigitsIn(s, j + |Grouped(n)|, |s|)
    ensures TokenAt(s, j, false)
    ensures TextToPrices(s, false) == [n]
  {
    var g := Grouped(n);
    var r := j + |g|;
    GroupedShape(n);
    forall i | 0 <= i < j ensures !TokenAt(s, i, false) {
      assert !IsDigit(s[i]);
    }
    ValuesSkip(s, false, 0, j);
    if r + 1 < |s| { assert !IsDigit(s[r + 1]); }
    GroupEndOfGrouped(s, j, g);
    ValuesAtToken(s, false, j);
    BareMatchValue(s, j, n);
    forall i | r <= i < |s| ensures !TokenAt(s, i, false) {
      assert !IsDigit(s[i]);
    }
    ValuesSkip(s, false, r, |s|);
  }

  /** No `$` sits before a digit of `s` when the only digits are those of a
      bare price not preceded by `$`. */
  lemma NoDollarAt(s: string, j: nat, n: nat)
    requires Placed(s, j, Grouped(n))
    requires NoDigitsIn(s, 0, j) && NoDigitsIn(s, j + |Grouped(n)|, |s|)
    requires j == 0 || s[j - 1] != '$'
    ensures !HasToken(s, true)
  {
    var g := Grouped(n);
    GroupedShape(n);
    forall k | 0 <= k < |s| ensures !TokenAt(s, k, true) {
      if k + 1 < |s| && IsDigit(s[k + 1]) && j <= k {
        assert GroupChar(g, 0, |g|, k - j);
        assert s[j + (k - j)] == g[k - j];
      }
    }
  }

  /** A bare printed number counts as a price exactly when it reaches the
      floor: "995,000" gives [995000] for a sale and "20" gives None for a
      rental. */
  lemma BarePriceRoundTrip(pre: string, n: nat, post: string, floor: int)
    requires NoDigits(pre) && NoDigits(post)
    requires |pre| == 0 || pre[|pre| - 1] != '$'
    ensures ExtractPrices(pre + Grouped(n) + post, floor) == if n >= floor then Some([n]) else None
  {
    var g := Grouped(n);
    var s := pre + g + post;
    ConcatParts(pre, g, post);
    if |pre| > 0 { assert s[|pre| - 1] == pre[|pre| - 1]; }
    NoDollarAt(s, |pre|, n);
    BareAt(s, |pre|, n);
    assert AtLeast([n], floor) == if n >= floor then [n] else [];
  }

  /** A text without digits holds no price, at any floor. */
  lemma NoDigitsNoPrices(s: string, floor: int)
    requires NoDigits(s)
    ensures ExtractPrices(s, floor) == None
  {
    assert !HasToken(s, true) by {
      forall k | 0 <= k < |s| ensures !TokenAt(s, k, true) {
        if k + 1 < |s| { assert !IsDigit(s[k + 1]); }
      }
    }
    assert !HasToken(s, false) by {
      forall k | 0 <= k < |s| ensures !TokenAt(s, k, false) {
        assert !IsDigit(s[k]);
      }
    }
  }

  // ---------------------------------------------------------------------
  // Several bare prices

  /** A printed number holds no `$`. */
  lemma GroupedNoDollar(n: nat)
    ensures '$' !in Grouped(n)
  {
    var g := Grouped(n);
    GroupedShape(n);
    forall i | 0 <= i < |g| ensures g[i] != '$' {
      assert GroupChar(g, 0, |g|, i);
    }
  }

  lemma {:induction false} BareListNoDollar(ps: seq<nat>, sep: string)
    requires '$' !in sep
    ensures '$' !in BareList(ps, sep)
    decreases |ps|
  {
    if |ps| > 0 {
      GroupedNoDollar(ps[0]);
      if |ps| > 1 {
        BareListNoDollar(ps[1..], sep);
      }
    }
  }

  /** A list of bare prices placed at `k`, with no digit after it, gives
      back its prices in order, when the separator holds no digit and does
      not begin with a comma that would join two numbers into one. */
  lemma {:induction false} BareListAt(s: string, k: nat, ps: seq<nat>, sep: string)
    requires |ps| > 0 && NoDigits(sep) && |sep| > 0 && sep[0] != ','
    requires Placed(s, k, BareList(ps, sep))
    requires NoDigitsIn(s, k + |BareList(ps, sep)|, |s|)
    ensures ValuesFrom(s, false, k) == ps
    decreases |ps|
  {
    var g := Grouped(ps[0]);
    var r := k + |g|;
    GroupedShape(ps[0]);
    if |ps| == 1 {
      assert BareList(ps, sep) == g;
      if r + 1 < |s| { assert !IsDigit(s[r + 1]); }
      GroupEndOfGrouped(s, k, g);
      ValuesAtToken(s, false, k);
      BareMatchValue(s, k, ps[0]);
      forall i | r <= i < |s| ensures !TokenAt(s, i, false) {
        assert !IsDigit(s[i]);
      }
      ValuesSkip(s, false, r, |s|);
      assert ps == [ps[0]];
    } else {
      var rest := BareList(ps[1..], sep);
      var q := r + |sep|;
      assert BareList(ps, sep) == g + (sep + rest);
      PlacedSplit(s, k, g, sep + rest);
      PlacedSplit(s, r, sep, rest);
      assert s[r + 0] == sep[0];
      GroupEndOfGrouped(s, k, g);
      ValuesAtToken(s, false, k);
      BareMatchValue(s, k, ps[0]);
      forall i | r <= i < q ensures !TokenAt(s, i, false) {
        assert s[r + (i - r)] == sep[i - r];
      }
      ValuesSkip(s, false, r, q);
      BareListAt(s, q, ps[1..], sep);
      assert ps == [ps[0]] + ps[1..];
    }
  }

  /** No `$` of a caption of bare prices stands before a digit. */
  lemma BareListNoToken(pre: string, ps: seq<nat>, sep: string, post: string)
    requires NoDigits(pre) && NoDigits(post) && '$' !in sep
    requires |pre| == 0 || pre[|pre| - 1] != '$'
    ensures !HasToken(pre + BareList(ps, sep) + post, true)
  {
    var b := BareList(ps, sep);
    var s := pre + b + post;
    var j := |pre|;
    ConcatParts(pre, b, post);
    BareListNoDollar(ps, sep);
    forall k | 0 <= k < |s| ensures !TokenAt(s, k, true) {
      if k + 1 < j {
        assert !IsDigit(s[k + 1]);
      } else if k + 1 == j {
        assert s[k] == pre[k];
      } else if k < j + |b| {
        assert s[k] == b[k - j] && b[k - j] in b;
      } else if k + 1 < |s| {
        assert !IsDigit(s[k + 1]);
      }
    }
  }

  /** The bare prices of such a caption are read back in full. */
  lemma BareListPrices(pre: string, ps: seq<nat>, sep: string, post: string)
    requires |ps| > 0 && NoDigits(pre) && NoDigits(sep) && NoDigits(post)
    requires |sep| > 0 && sep[0] != ','
    ensures TextToPrices(pre + BareList(ps, sep) + post, false) == ps
  {
    var b := BareList(ps, sep);
    var s := pre + b + post;
    var j := |pre|;
    ConcatParts(pre, b, post);
    forall i | 0 <= i < j ensures !TokenAt(s, i, false) {
      assert !IsDigit(s[i]);
    }
    ValuesSkip(s, false, 0, j);
    BareListAt(s, j, ps, sep);
  }

  /** Without a `$` before any digit, every bare price of a caption that
      reaches the floor comes back, in order and with repeats: "300,000
      to 280,000" gives [300000, 280000] for a sale. */
  lemma BarePricesRoundTrip(pre: string, ps: seq<nat>, sep: string, post: string, floor: int)
    requires |ps| > 0 && NoDigits(pre) && NoDigits(sep) && NoDigits(post)
    requires |sep| > 0 && sep[0] != ',' && '$' !in sep
    requires |pre| == 0 || pre[|pre| - 1] != '$'
    ensures ExtractPrices(pre + BareList(ps, sep) + post, floor)
            == if |AtLeast(ps, floor)| > 0 then Some(AtLeast(ps, floor)) else None
  {
    BareListNoToken(pre, ps, sep, post);
    BareListPrices(pre, ps, sep, post);
    if |AtLeast(ps, floor)| > 0 {
      assert AtLeast(ps, floor)[0] in AtLeast(ps, floor);
    }
  }
}

=== FILE: prices.dfy ===
/** The price extractor: `extract_prices` and `text_to_prices`, i.e.
    `re.findall` of `\$\d+(,\d+)*` (or of `\d+(,\d+)*` when the text holds no
    dollar token), commas and dollar signs stripped, parsed as integers, with
    a floor applied to bare numbers only. */
module Prices {
  import opened Wrappers
  import opened Text

  /** `PageScraper.MIN_PRICE`, the floor for sale listings. */
  const SaleMinPrice: int := 10000
  /** `RentalsScraper.MIN_PRICE`, the floor for weekly rents. */
  const RentalMinPrice: int := 50

  /** A match of the price pattern: the half-open slice `start..end`. */
  datatype Span = Span(start: nat, end: nat)

  /** Position `k` is where the pattern can begin matching: `$` and a digit
      for the dollar pattern, a digit for the bare one. */
  predicate TokenAt(s: string, k: nat, dollar: bool) {
    if dollar then k + 1 < |s| && s[k] == '$' && IsDigit(s[k + 1])
    else k < |s| && IsDigit(s[k])
  }

  /** `re.search(pattern, s) is not None`. */
  predicate HasToken(s: string, dollar: bool) {
    exists k :: 0 <= k < |s| && TokenAt(s, k, dollar)
  }

  /** End of the greedy `\d+` run starting at `j`. */
  function RunEnd(s: string, j: nat): (r: nat)
    requires j <= |s|
    ensures j <= r <= |s|
    ensures forall m :: j <= m < r ==> IsDigit(s[m])
    ensures r == |s| || !IsDigit(s[r])
    decreases |s| - j
  {
    if j < |s| && IsDigit(s[j]) then RunEnd(s, j + 1) else j
  }

  /** A further `(,\d+)` group can be taken at `r`. */
  predicate GroupFollows(s: string, r: nat) {
    r + 1 < |s| && s[r] == ',' && IsDigit(s[r + 1])
  }

  /** Character `m` of the match `j..r` is a digit, or a comma between two
      digits of that match. */
  predicate GroupChar(s: string, j: nat, r: nat, m: nat) {
    && j <= m < r <= |s|
    && (IsDigit(s[m]) || (s[m] == ',' && j < m && m + 1 < r && IsDigit(s[m - 1]) && IsDigit(s[m + 1])))
  }

  /** End of the greedy `\d+(,\d+)*` match starting at the digit at `j`:
      the match ends on a digit and cannot be extended. */
  function GroupEnd(s: string, j: nat): (r: nat)
    requires j < |s| && IsDigit(s[j])
    ensures j < r <= |s|
    ensures IsDigit(s[r - 1])
    ensures r == |s| || !IsDigit(s[r])
    ensures !GroupFollows(s, r)
    ensures forall m :: j <= m < r ==> GroupChar(s, j, r, m)
    decreases |s| - j
  {
    var d := RunEnd(s, j);
    assert j < d by {
      if d == j { assert IsDigit(s[j]); }
    }
    if GroupFollows(s, d) then
      var r := GroupEnd(s, d + 1);
      assert forall m :: j <= m < r ==> GroupChar(s, j, r, m) by {
        forall m | j <= m < r
          ensures GroupChar(s, j, r, m)
        {
          if m < d {
            assert IsDigit(s[m]);
          } else if m == d {
            assert IsDigit(s[d - 1]) && IsDigit(s[d + 1]) && d + 1 < r;
          } else {
            assert GroupChar(s, d + 1, r, m);
          }
        }
      }
      r
    else
      assert forall m :: j <= m < d ==> GroupChar(s, j, d, m) by {
        forall m | j <= m < d
          ensures GroupChar(s, j, d, m)
        {
          assert IsDigit(s[m]);
        }
      }
      d
  }

  /** End of the match that begins at a token position. */
  function TokenEnd(s: string, k: nat, dollar: bool): (e: nat)
    requires TokenAt(s, k, dollar)
    ensures k < e <= |s|
  {
    GroupEnd(s, if dollar then k + 1 else k)
  }

  /** The spans are in bounds, each a complete match, left to right and
      non-overlapping, none starting before `k`. */
  ghost predicate WellFormedSpans(s: string, spans: seq<Span>, dollar: bool, k: nat) {
    && (forall t :: 0 <= t < |spans| ==>
          && k <= spans[t].start
          && TokenAt(s, spans[t].start, dollar)
          && spans[t].end == TokenEnd(s, spans[t].start, dollar))
    && (forall t :: 0 < t < |spans| ==> spans[t - 1].end <= spans[t].start)
  }

  /** `re.findall` from position `k`: leftmost match, then resume after it. */
  function ScanFrom(s: string, dollar: bool, k: nat): (spans: seq<Span>)
    requires k <= |s|
    ensures WellFormedSpans(s, spans, dollar, k)
    decreases |s| - k
  {
    if k == |s| then []
    else if TokenAt(s, k, dollar) then
      var e := TokenEnd(s, k, dollar);
      var rest := ScanFrom(s, dollar, e);
      var spans := [Span(k, e)] + rest;
      assert forall t :: 0 < t < |spans| ==> spans[t] == rest[t - 1];
      spans
    else
      ScanFrom(s, dollar, k + 1)
  }

  /** `x.replace('$', '').replace(',', '')`. */
  function StripSeparators(t: string): (r: string)
    ensures PriceChars(t) ==> AllDigits(r)
    decreases |t|
  {
    if |t| == 0 then []
    else (if t[0] == '$' || t[0] == ',' then [] else [t[0]]) + StripSeparators(t[1..])
  }

  /** The characters a price match consists of. */
  predicate PriceChars(t: string) {
    forall i :: 0 <= i < |t| ==> IsDigit(t[i]) || t[i] == ',' || t[i] == '$'
  }

  lemma MatchIsPriceChars(s: string, k: nat, dollar: bool)
    requires TokenAt(s, k, dollar)
    ensures PriceChars(s[k..TokenEnd(s, k, dollar)])
  {
    var j := if dollar then k + 1 else k;
    var e := GroupEnd(s, j);
    var t := s[k..e];
    forall i | 0 <= i < |t|
      ensures IsDigit(t[i]) || t[i] == ',' || t[i] == '$'
    {
      var m := k + i;
      assert t[i] == s[m];
      if m >= j {
        assert GroupChar(s, j, e, m);
      }
    }
  }

  /** `int(...)` of one matched price text. */
  function SpanValue(s: string, sp: Span, dollar: bool): nat
    requires TokenAt(s, sp.start, dollar) && sp.end == TokenEnd(s, sp.start, dollar)
  {
    MatchIsPriceChars(s, sp.start, dollar);
    DecimalValue(StripSeparators(s[sp.start..sp.end]))
  }

  /** The values of the matches from position `k` on, in order. */
  function ValuesFrom(s: string, dollar: bool, k: nat): seq<nat>
    requires k <= |s|
    decreases |s| - k
  {
    if k == |s| then []
    else if TokenAt(s, k, dollar) then
      var e := TokenEnd(s, k, dollar);
      [SpanValue(s, Span(k, e), dollar)] + ValuesFrom(s, dollar, e)
    else
      ValuesFrom(s, dollar, k + 1)
  }

  /** `text_to_prices`: the value of every match, in order. */
  function TextToPrices(s: string, dollar: bool): seq<nat> {
    ValuesFrom(s, dollar, 0)
  }

  /** `[x for x in prices if x >= min_price]`: every price at or above the
      floor, as often as it occurs. Order is kept: see `AtLeastAppend`. */
  function AtLeast(ps: seq<nat>, floor: int): (r: seq<nat>)
    ensures |r| <= |ps|
    ensures forall x :: x in r <==> x in ps && x >= floor
    decreases |ps|
  {
    if |ps| == 0 then []
    else (if ps[0] >= floor then [ps[0]] else []) + AtLeast(ps[1..], floor)
  }

  /** Every price at or above the floor is kept as often as it occurs, and
      no other price is kept. */
  lemma {:induction false} AtLeastCounts(ps: seq<nat>, floor: int)
    ensures forall x :: multiset(AtLeast(ps, floor))[x] == if x >= floor then multiset(ps)[x] else 0
    decreases |ps|
  {
    if |ps| > 0 {
      assert ps == [ps[0]] + ps[1..];
      AtLeastCounts(ps[1..], floor);
    }
  }

  /** The filter keeps the order of the prices: filtering a concatenation
      is concatenating the filtered parts. */
  lemma {:induction false} AtLeastAppend(a: seq<nat>, b: seq<nat>, floor: int)
    ensures AtLeast(a + b, floor) == AtLeast(a, floor) + AtLeast(b, floor)
    decreases |a|
  {
    if |a| == 0 {
      assert a + b == b;
    } else {
      var h := if a[0] >= floor then [a[0]] else [];
      assert (a + b)[0] == a[0];
      assert (a + b)[1..] == a[1..] + b;
      AtLeastAppend(a[1..], b, floor);
      assert AtLeast(a + b, floor) == h + (AtLeast(a[1..], floor) + AtLeast(b, floor));
      assert AtLeast(a, floor) == h + AtLeast(a[1..], floor);
    }
  }

  /** One price is kept exactly when it reaches the floor. */
  lemma AtLeastOne(x: nat, floor: int)
    ensures AtLeast([x], floor) == if x >= floor then [x] else []
  {
    assert [x][1..] == [];
  }

  /** `extract_prices(price_text, min_price)`; None is Python's None. */
  function ExtractPrices(s: string, floor: int): (r: Option<seq<nat>>)
    ensures r.Some? ==> |r.value| > 0
    ensures HasToken(s, true) ==> r == Some(TextToPrices(s, true))
    ensures !HasToken(s, true) && r.Some? ==> forall x :: x in r.value ==> x >= floor
    ensures !HasToken(s, true) && r.Some? ==> r.value == AtLeast(TextToPrices(s, false), floor)
    ensures !HasToken(s, true) ==>
              (r.None? <==> forall x :: x in TextToPrices(s, false) ==> x < floor)
  {
    if HasToken(s, true) then
      ValuesFind(s, true, 0);
      Some(TextToPrices(s, true))
    else if HasToken(s, false) then
      var ps := AtLeast(TextToPrices(s, false), floor);
      if |ps| != 0 then
        assert ps[0] in ps;
        Some(ps)
      else
        None
    else
      assert |TextToPrices(s, false)| == 0 by { ValuesFind(s, false, 0); }
      None
  }

  /** A value is found exactly when the pattern occurs. */
  lemma {:induction false} ValuesFind(s: string, dollar: bool, k: nat)
    requires k <= |s|
    ensures |ValuesFrom(s, dollar, k)| > 0 <==> exists i :: k <= i < |s| && TokenAt(s, i, dollar)
    decreases |s| - k
  {
    if k < |s| && !TokenAt(s, k, dollar) {
      ValuesFind(s, dollar, k + 1);
    }
  }

  /** The values are those of the spans `re.findall` matches, one for one. */
  lemma {:induction false} ValuesOfSpans(s: string, dollar: bool, k: nat)
    requires k <= |s|
    ensures |ValuesFrom(s, dollar, k)| == |ScanFrom(s, dollar, k)|
    ensures forall t :: 0 <= t < |ScanFrom(s, dollar, k)| ==>
              ValuesFrom(s, dollar, k)[t] == SpanValue(s, ScanFrom(s, dollar, k)[t], dollar)
    decreases |s| - k
  {
    if k == |s| {
    } else if TokenAt(s, k, dollar) {
      var e := TokenEnd(s, k, dollar);
      var vr := ValuesFrom(s, dollar, e);
      var sr := ScanFrom(s, dollar, e);
      ValuesOfSpans(s, dollar, e);
      var v0 := SpanValue(s, Span(k, e), dollar);
      assert ValuesFrom(s, dollar, k) == [v0] + vr;
      assert ScanFrom(s, dollar, k) == [Span(k, e)] + sr;
      forall t | 0 <= t < |sr| + 1
        ensures ([v0] + vr)[t] == SpanValue(s, ([Span(k, e)] + sr)[t], dollar)
      {
        if t > 0 {
          assert ([v0] + vr)[t] == vr[t - 1];
          assert ([Span(k, e)] + sr)[t] == sr[t - 1];
        }
      }
    } else {
      ValuesOfSpans(s, dollar, k + 1);
    }
  }

  // ---------------------------------------------------------------------
  // Which positions begin a match: a description that does not scan.

  /** Position `i` begins a match of `re.findall`. A dollar token begins at
      every `$` followed by a digit. A bare token begins at a digit that does
      not continue a number to its left: not after a digit, and not after a
      comma that follows a digit. */
  predicate IsMatchStart(s: string, i: nat, dollar: bool) {
    if dollar then TokenAt(s, i, true)
    else
      && TokenAt(s, i, false)
      && !(i > 0 && IsDigit(s[i - 1]))
      && !(i > 1 && s[i - 1] == ',' && IsDigit(s[i - 2]))
  }

  /** Position `k` lies inside a grouped number begun to its left. */
  predicate InsideNumber(s: string, k: nat) {
    0 < k < |s| &&
    ((IsDigit(s[k - 1]) && (IsDigit(s[k]) || GroupFollows(s, k)))
     || (k > 1 && s[k - 1] == ',' && IsDigit(s[k - 2]) && IsDigit(s[k])))
  }

  /** No match begins strictly inside another. */
  lemma NoStartInsideMatch(s: string, k: nat, dollar: bool, i: nat)
    requires TokenAt(s, k, dollar) && k < i < TokenEnd(s, k, dollar)
    ensures !IsMatchStart(s, i, dollar)
  {
    var j := if dollar then k + 1 else k;
    var e := GroupEnd(s, j);
    if i == j {
      assert dollar && IsDigit(s[i]);
    } else {
      assert GroupChar(s, j, e, i) && GroupChar(s, j, e, i - 1);
    }
  }

  /** The scan resumes at a position that continues no number. */
  lemma MatchEndOutsideNumber(s: string, k: nat, dollar: bool)
    requires TokenAt(s, k, dollar)
    ensures !InsideNumber(s, TokenEnd(s, k, dollar))
  {
  }

  /** Some span of the list begins at `i`. */
  predicate StartsAt(spans: seq<Span>, i: nat) {
    exists t :: 0 <= t < |spans| && spans[t].start == i
  }

  lemma StartsAtCons(x: Span, rest: seq<Span>, i: nat)
    ensures StartsAt([x] + rest, i) <==> x.start == i || StartsAt(rest, i)
  {
    var spans := [x] + rest;
    assert spans[0] == x;
    if StartsAt(rest, i) {
      var t :| 0 <= t < |rest| && rest[t].start == i;
      assert spans[t + 1] == rest[t];
    }
    if StartsAt(spans, i) && x.start != i {
      var t :| 0 <= t < |spans| && spans[t].start == i;
      assert t > 0 && spans[t] == rest[t - 1];
    }
  }

  lemma NoStartBefore(s: string, spans: seq<Span>, dollar: bool, k: nat, i: nat)
    requires WellFormedSpans(s, spans, dollar, k) && i < k
    ensures !StartsAt(spans, i)
  {
  }

  lemma {:induction false} ScanFromStarts(s: string, dollar: bool, k: nat)
    requires k <= |s|
    requires dollar || !InsideNumber(s, k)
    ensures forall i :: k <= i < |s| ==> (IsMatchStart(s, i, dollar) <==> StartsAt(ScanFrom(s, dollar, k), i))
    decreases |s| - k
  {
    if k == |s| {
    } else if TokenAt(s, k, dollar) {
      var e := TokenEnd(s, k, dollar);
      var rest := ScanFrom(s, dollar, e);
      assert ScanFrom(s, dollar, k) == [Span(k, e)] + rest;
      MatchEndOutsideNumber(s, k, dollar);
      ScanFromStarts(s, dollar, e);
      forall i | k <= i < |s|
        ensures IsMatchStart(s, i, dollar) <==> StartsAt([Span(k, e)] + rest, i)
      {
        StartsAtCons(Span(k, e), rest, i);
        if i < e {
          NoStartBefore(s, rest, dollar, e, i);
          if i > k {
            NoStartInsideMatch(s, k, dollar, i);
          }
        }
      }
    } else {
      var rest := ScanFrom(s, dollar, k + 1);
      assert ScanFrom(s, dollar, k) == rest;
      ScanFromStarts(s, dollar, k + 1);
      NoStartBefore(s, rest, dollar, k + 1, k);
    }
  }

  /** Completeness and soundness of the scan: the matches `re.findall`
      reports begin exactly at the positions IsMatchStart describes, they
      come in left-to-right order without overlap, and the prices are
      their values in that order. */
  lemma MatchStarts(s: string, dollar: bool)
    ensures WellFormedSpans(s, ScanFrom(s, dollar, 0), dollar, 0)
    ensures forall i :: 0 <= i < |s| ==> (IsMatchStart(s, i, dollar) <==> StartsAt(ScanFrom(s, dollar, 0), i))
    ensures |TextToPrices(s, dollar)| == |ScanFrom(s, dollar, 0)|
    ensures forall t :: 0 <= t < |ScanFrom(s, dollar, 0)| ==>
              TextToPrices(s, dollar)[t] == SpanValue(s, ScanFrom(s, dollar, 0)[t], dollar)
  {
    ScanFromStarts(s, dollar, 0);
    ValuesOfSpans(s, dollar, 0);
  }
}

=== FILE: property_types.dfy ===
/** The kind of dwelling a listing offers, read from the slug of its link
    (`/property-house-act-gordon-123` has slug `house`): the slug pattern,
    the general table of slugs, and the stricter table of rural listings. */
module PropertyTypes {
  import opened Wrappers
  import opened Text
  import opened Errors

  datatype PropertyType =
    | House
    | TownHouse
    | Unit
    | ServicedApartment
    | Studio
    | Land
    | Duplex
    | RetirementLiving
    | UnitBlock
    | SemiRural
    | NotSpecified
    | Rural
      /** A slug outside the table, kept with the link it came from. */
    | PropertyTypeNotSupported(text: string, source: string)

  // ---------------------------------------------------------------------
  // The slug: `re.search('^\/property-(\w+\+?\w*\+?\w*\+?\w*)', href)`

  const LinkPrefix: string := "/property-"

  /** Number of `+` in `t[i..e]`. */
  function PlusCount(t: string, i: nat, e: nat): nat
    requires i <= e <= |t|
    decreases e - i
  {
    if i == e then 0 else (if t[i] == '+' then 1 else 0) + PlusCount(t, i + 1, e)
  }

  predicate IsSlugChar(c: char) {
    IsWordChar(c) || c == '+'
  }

  /** Where the greedy slug pattern stops when it reaches `i` with `pluses`
      of its optional `\+` still unused: word characters are always taken,
      a `+` only while one of the optional ones is left. */
  function SlugEnd(t: string, i: nat, pluses: nat): (e: nat)
    requires i <= |t|
    ensures i <= e <= |t|
    ensures forall m :: i <= m < e ==> IsSlugChar(t[m])
    ensures PlusCount(t, i, e) <= pluses
    ensures e == |t| || (!IsWordChar(t[e]) && (t[e] != '+' || PlusCount(t, i, e) == pluses))
    decreases |t| - i
  {
    if i < |t| && IsWordChar(t[i]) then SlugEnd(t, i + 1, pluses)
    else if i < |t| && t[i] == '+' && pluses > 0 then SlugEnd(t, i + 1, pluses - 1)
    else i
  }

  /** `get_property_type_text`: the slug after `/property-`, or None when
      the link does not have that shape (the source then fails on `None`). */
  function ExtractSlug(href: string): (r: Option<string>)
    ensures r.Some? <==> |href| > |LinkPrefix| && href[..|LinkPrefix|] == LinkPrefix && IsWordChar(href[|LinkPrefix|])
    ensures r.Some? ==> |r.value| > 0 && IsWordChar(r.value[0])
  {
    var n := |LinkPrefix|;
    if |href| > n && href[..n] == LinkPrefix && IsWordChar(href[n]) then
      Some(href[n..SlugEnd(href, n + 1, 3)])
    else
      None
  }

  /** The slug is the longest stretch of word characters and `+` after the
      prefix that holds at most three `+`. */
  lemma SlugIsLongest(href: string)
    requires ExtractSlug(href).Some?
    ensures var n := |LinkPrefix|; var s := ExtractSlug(href).value;
            && n + |s| <= |href| && href[n..n + |s|] == s
            && (forall m :: 0 <= m < |s| ==> IsSlugChar(s[m]))
            && PlusCount(href, n, n + |s|) <= 3
            && forall e :: n + |s| < e <= |href| && (forall m :: n <= m < e ==> IsSlugChar(href[m]))
                 ==> PlusCount(href, n, e) > 3
  {
    var n := |LinkPrefix|;
    var e0 := SlugEnd(href, n + 1, 3);
    var s := href[n..e0];
    assert PlusCount(href, n, e0) == PlusCount(href, n + 1, e0);
    forall m | 0 <= m < |s| ensures IsSlugChar(s[m]) {
      assert s[m] == href[n + m];
    }
    forall e | e0 < e <= |href| && (forall m :: n <= m < e ==> IsSlugChar(href[m]))
      ensures PlusCount(href, n, e) > 3
    {
      assert IsSlugChar(href[e0]);
      assert href[e0] == '+' && PlusCount(href, n, e0) == 3;
      PlusCountSplit(href, n, e0, e);
      PlusCountSplit(href, e0, e0 + 1, e);
    }
  }

  lemma {:induction false} PlusCountSplit(t: string, i: nat, j: nat, e: nat)
    requires i <= j <= e <= |t|
    ensures PlusCount(t, i, e) == PlusCount(t, i, j) + PlusCount(t, j, e)
    decreases j - i
  {
    if i < j {
      PlusCountSplit(t, i + 1, j, e);
    }
  }

  /** A valid slug is where the greedy pattern stops. */
  lemma {:induction false} SlugEndAt(t: string, i: nat, pluses: nat, e: nat)
    requires i <= e <= |t|
    requires forall m :: i <= m < e ==> IsSlugChar(t[m])
    requires PlusCount(t, i, e) <= pluses
    requires e == |t| || (!IsWordChar(t[e]) && (t[e] != '+' || PlusCount(t, i, e) == pluses))
    ensures SlugEnd(t, i, pluses) == e
    decreases e - i
  {
    if i < e {
      if IsWordChar(t[i]) {
        SlugEndAt(t, i + 1, pluses, e);
      } else {
        SlugEndAt(t, i + 1, pluses - 1, e);
      }
    }
  }

  lemma {:induction false} PlusCountShift(pre: string, s: string, rest: string, i: nat, e: nat)
    requires i <= e <= |s|
    ensures PlusCount(pre + s + rest, |pre| + i, |pre| + e) == PlusCount(s, i, e)
    decreases e - i
  {
    var t := pre + s + rest;
    if i < e {
      assert t[|pre| + i] == s[i];
      PlusCountShift(pre, s, rest, i + 1, e);
    }
  }

  /** A slug of word characters and at most three `+`, beginning with a word
      character, is read back from a link built around it, provided what
      follows could not extend it. */
  lemma SlugRoundTrip(slug: string, rest: string)
    requires |slug| > 0 && IsWordChar(slug[0])
    requires forall m :: 0 <= m < |slug| ==> IsSlugChar(slug[m])
    requires PlusCount(slug, 0, |slug|) <= 3
    requires |rest| == 0 || (!IsWordChar(rest[0]) && (rest[0] != '+' || PlusCount(slug, 0, |slug|) == 3))
    ensures ExtractSlug(LinkPrefix + slug + rest) == Some(slug)
  {
    var n := |LinkPrefix|;
    var h := LinkPrefix + slug + rest;
    var e := n + |slug|;
    assert h[..n] == LinkPrefix;
    assert h[n] == slug[0];
    assert h[n..e] == slug;
    PlusCountShift(LinkPrefix, slug, rest, 1, |slug|);
    assert PlusCount(slug, 0, |slug|) == PlusCount(slug, 1, |slug|) + (if slug[0] == '+' then 1 else 0);
    forall m | n + 1 <= m < e ensures IsSlugChar(h[m]) {
      assert h[m] == slug[m - n];
    }
    if e < |h| {
      assert h[e] == rest[0];
    }
    SlugEndAt(h, n + 1, 3, e);
  }

  /** `+` beyond the third ends the slug: `/property-a+b+c+d+e` has slug
      `a+b+c+d`. */
  lemma FourthPlusEndsSlug()
    ensures ExtractSlug(LinkPrefix + "a+b+c+d" + "+e") == Some("a+b+c+d")
  {
    assert PlusCount("a+b+c+d", 0, 7) == 3;
    SlugRoundTrip("a+b+c+d", "+e");
  }

  // ---------------------------------------------------------------------
  // The general table: `extract_property_type`

  /** The slugs `extract_property_type` recognises. */
  const SlugTable: map<string, PropertyType> := map[
    "house" := House,
    "townhouse" := TownHouse, "villa" := TownHouse, "terrace" := TownHouse,
    "unit" := Unit, "apartment" := Unit, "flat" := Unit,
    "serviced+apartment" := ServicedApartment,
    "studio" := Studio,
    "residential+land" := Land,
    "duplex+semi+detached" := Duplex,
    "retirement+living" := RetirementLiving,
    "unitblock" := UnitBlock,
    "acreage+semi+rural" := SemiRural,
    "other" := NotSpecified
  ]

  /** The type a slug names; any slug outside the table is kept, with its
      link, as not supported. */
  function ClassifySlug(slug: string, source: string): (r: PropertyType)
    ensures slug in SlugTable ==> r == SlugTable[slug]
    ensures slug !in SlugTable ==> r == PropertyTypeNotSupported(slug, source)
  {
    if slug == "house" then House
    else if slug == "townhouse" || slug == "villa" || slug == "terrace" then TownHouse
    else if slug == "unit" || slug == "apartment" || slug == "flat" then Unit
    else if slug == "serviced+apartment" then ServicedApartment
    else if slug == "studio" then Studio
    else if slug == "residential+land" then Land
    else if slug == "duplex+semi+detached" then Duplex
    else if slug == "retirement+living" then RetirementLiving
    else if slug == "unitblock" then UnitBlock
    else if slug == "acreage+semi+rural" then SemiRural
    else if slug == "other" then NotSpecified
    else PropertyTypeNotSupported(slug, source)
  }

  /** `extract_property_type(node)`: the slug of the node's link, classified. */
  function ExtractPropertyType(href: string): (r: Result<PropertyType, ScrapeError>)
    ensures r.Err? <==> ExtractSlug(href).None?
    ensures r.Err? ==> r.error == PropertyTypeTextNotFound(href)
    ensures r.Ok? ==> r.value == ClassifySlug(ExtractSlug(href).value, href)
  {
    var slug :- FindSlug(href);
    Ok(ClassifySlug(slug, href))
  }

  /** The slug, or the error the source's `None.group(1)` stands for. */
  function FindSlug(href: string): (r: Result<string, ScrapeError>)
    ensures r.Ok? <==> ExtractSlug(href).Some?
    ensures r.Ok? ==> r.value == ExtractSlug(href).value
    ensures r.Err? ==> r.error == PropertyTypeTextNotFound(href)
  {
    match ExtractSlug(href)
    case Some(s) => Ok(s)
    case None => Err(PropertyTypeTextNotFound(href))
  }

  /** A house link such as `/property-house-act-gordon-123`. */
  lemma HouseExample()
    ensures ExtractPropertyType(LinkPrefix + "house" + "-act-gordon-123") == Ok(House)
  {
    assert PlusCount("house", 0, 5) == 0;
    SlugRoundTrip("house", "-act-gordon-123");
  }

  /** A stretch of word characters holds no `+`. */
  lemma {:induction false} PlusCountWords(t: string, i: nat, e: nat)
    requires i <= e <= |t|
    requires forall m :: i <= m < e ==> IsWordChar(t[m])
    ensures PlusCount(t, i, e) == 0
    decreases e - i
  {
    if i < e {
      PlusCountWords(t, i + 1, e);
    }
  }

  /** A link without the `/property-` shape has no type: the source fails. */
  lemma NoSlugExample()
    ensures ExtractPropertyType("/project-x") == Err(PropertyTypeTextNotFound("/project-x"))
  {
    assert "/project-x"[8] != LinkPrefix[8];
  }

  // ---------------------------------------------------------------------
  // The rural table of `scrape_rural_property`

  /** The rural slugs that make a listing rural. */
  const RuralSlugs: set<string> :=
    {"other", "mixed+farming", "cropping", "horticulture", "dairy", "livestock", "farmlet", "viticulture"}

  /** The rural branch: the listed slugs are rural, `lifestyle` is kept as
      not supported, and any other slug raises `ValueError`. */
  function ClassifyRuralSlug(slug: string, source: string): (r: Result<PropertyType, ScrapeError>)
    ensures r.Ok? <==> slug in RuralSlugs || slug == "lifestyle"
    ensures slug in RuralSlugs ==> r == Ok(Rural)
    ensures slug == "lifestyle" ==> r == Ok(PropertyTypeNotSupported(slug, source))
    ensures r.Err? ==> r.error == RuralPropertyTypeNotRecognised(slug)
  {
    if slug == "other" || slug == "mixed+farming" || slug == "cropping" || slug == "horticulture"
       || slug == "dairy" || slug == "livestock" || slug == "farmlet" || slug == "viticulture" then
      Ok(Rural)
    else if slug == "lifestyle" then
      Ok(PropertyTypeNotSupported(slug, source))
    else
      Err(RuralPropertyTypeNotRecognised(slug))
  }

  /** `other` means different things on the two paths: not specified in
      general, rural on the rural path. A general slug such as `house` is
      refused on the rural path. */
  lemma RuralNarrowing(source: string)
    ensures ClassifySlug("other", source) == NotSpecified
    ensures ClassifyRuralSlug("other", source) == Ok(Rural)
    ensures ClassifySlug("house", source) == House
    ensures ClassifyRuralSlug("house", source).Err?
  {
  }

  /** The slug of a rural listing's link, classified by the rural table. */
  function ExtractRuralPropertyType(href: string): (r: Result<PropertyType, ScrapeError>)
    ensures ExtractSlug(href).None? ==> r == Err(PropertyTypeTextNotFound(href))
    ensures ExtractSlug(href).Some? ==> r == ClassifyRuralSlug(ExtractSlug(href).value, href)
  {
    var slug :- FindSlug(href);
    ClassifyRuralSlug(slug, href)
  }
}

=== FILE: sale_examples.dfy ===
/** The sale and rental types the repository's tests record for caption
    texts, derived from the model. */
module SaleExamples {
  import opened Wrappers
  import opened Text
  import opened Prices
  import opened PriceText
  import opened Captions
  import opened SaleTypes

  lemma NoDigitsExample(t: string)
    requires forall i :: 0 <= i < |t| ==> !IsDigit(t[i])
    ensures ExtractPrices(t, SaleMinPrice) == None && ExtractPrices(t, RentalMinPrice) == None
  {
    NoDigitsNoPrices(t, SaleMinPrice);
    NoDigitsNoPrices(t, RentalMinPrice);
  }

  /** "Tenders Thursday 1st September" is a tender: the keyword need only
      begin the text. */
  lemma TenderExample()
    ensures DeduceSaleType("Tenders Thursday 1st September", true, false) == Tender(true)
  {
    var t := "Tenders Thursday 1st September";
    StartsWithCIHead(t, "auction");
    assert Lower(t[..6]) == "tender";
  }

  /** Keywords are matched in any case. */
  lemma KeywordCaseExamples()
    ensures DeduceSaleType("AUCTION 10 Sept 2016", true, false) == Auction(true)
    ensures DeduceSaleType("Auction", false, false) == Auction(false)
    ensures DeduceSaleType("tender", true, false) == Tender(true)
  {
    assert Lower("AUCTION 10 Sept 2016"[..7]) == "auction";
    assert Lower("Auction"[..7]) == "auction";
    StartsWithCIHead("tender", "auction");
    assert Lower("tender"[..6]) == "tender";
  }

  /** "Price by negotiation" is a sale by negotiation. */
  lemma PriceByNegotiationExample()
    ensures DeduceSaleType("Price by negotiation", false, false) == Negotiation(false)
  {
    var t := "Price by negotiation";
    StartsWithCIHead(t, "auction");
    StartsWithCIHead(t, "tender");
    assert Lower(t[..6]) == "price ";
    assert Lower(t[6..][..14]) == "by negotiation";
  }

  /** "by Negotiation" is a sale by negotiation. */
  lemma ByNegotiationExample()
    ensures DeduceSaleType("by Negotiation", false, false) == Negotiation(false)
  {
    var t := "by Negotiation";
    StartsWithCIHead(t, "auction");
    StartsWithCIHead(t, "tender");
    assert Lower(t[..14]) == "by negotiation";
  }

  /** The misspelt "by Negotiaton" is a sale by negotiation. */
  lemma MisspeltNegotiationExample()
    ensures DeduceSaleType("by Negotiaton", true, false) == Negotiation(true)
  {
    var t := "by Negotiaton";
    StartsWithCIHead(t, "auction");
    StartsWithCIHead(t, "tender");
    assert Lower(t[..13]) == "by negotiaton";
  }

  /** "Contact Agent" asks the buyer to call. */
  lemma ContactAgentExample()
    ensures DeduceSaleType("Contact Agent", false, false) == ContactAgent(false)
  {
    ContactAgentNoPrice();
    ContactAgentNoKeyword();
    ContactAgentKeyword();
  }

  lemma ContactAgentKeyword()
    ensures StartsWithCI("Contact Agent", "contact agent")
  {
    var t := "Contact Agent";
    assert Lower(t[..13]) == "contact agent";
  }

  lemma ContactAgentNoPrice()
    ensures ExtractPrices("Contact Agent", SaleMinPrice) == None
  {
    NoDigitsNoPrices("Contact Agent", SaleMinPrice);
  }

  lemma ContactAgentNoKeyword()
    ensures !StartsWithCI("Contact Agent", "auction") && !StartsWithCI("Contact Agent", "tender")
    ensures !IsNegotiation("Contact Agent")
  {
    var t := "Contact Agent";
    StartsWithCIHead(t, "auction");
    StartsWithCIHead(t, "tender");
    StartsWithCIHead(t, "price ");
    StartsWithCIHead(t, "by negotiation");
    StartsWithCIHead(t, "by negotiaton");
    StartsWithCIHead(t, "by negotation");
  }

  /** The sentinel is recognised as such. */
  lemma SentinelExample()
    ensures DeduceSaleType(Sentinel, false, false) == UnableToFindSaleTypeText
  {
    SentinelHasNoPrice(SaleMinPrice);
    SentinelNotNegotiation();
    StartsWithCIHead(Sentinel, "auction");
    StartsWithCIHead(Sentinel, "tender");
    StartsWithCIHead(Sentinel, "contact agent");
  }

  /** An empty caption cannot be parsed, unless the listing is off the plan. */
  lemma EmptyTextExamples()
    ensures DeduceSaleType("", false, false) == SaleTypeParseFailed
    ensures DeduceSaleType("", false, true) == OffPlan(None, false)
  {
    NoDigitsExample("");
  }

  lemma Grouped4999000()
    ensures Grouped(4999000) == "4,999,000"
  {
    assert Grouped(4) == "4";
    assert Pad3(999) == "999";
    assert Pad3(0) == "000";
  }

  /** "$4,999,000+" is a private treaty at 4999000. */
  lemma DollarPriceExample()
    ensures DeduceSaleType("$4,999,000+", true, false) == PrivateTreaty([4999000], true)
  {
    Grouped4999000();
    assert DollarList([4999000], "") == "$4,999,000";
    DollarPricesRoundTrip("", [4999000], "", "+", SaleMinPrice);
    assert "" + DollarList([4999000], "") + "+" == "$4,999,000+";
    var t := "$4,999,000+";
    StartsWithCIHead(t, "auction");
    StartsWithCIHead(t, "tender");
    StartsWithCIHead(t, "price ");
    StartsWithCIHead(t, "by negotiation");
    StartsWithCIHead(t, "by negotiaton");
    StartsWithCIHead(t, "by negotation");
  }

  lemma Grouped995000()
    ensures Grouped(995000) == "995,000"
  {
    assert Grouped(995) == "995";
    assert Pad3(0) == "000";
  }

  /** "995,000", without a dollar sign, clears the sale floor. */
  lemma BarePriceExample()
    ensures DeduceSaleType("995,000", false, false) == PrivateTreaty([995000], false)
  {
    Grouped995000();
    BarePriceRoundTrip("", 995000, "", SaleMinPrice);
    assert "" + Grouped(995000) + "" == "995,000";
    var t := "995,000";
    StartsWithCIHead(t, "auction");
    StartsWithCIHead(t, "tender");
    StartsWithCIHead(t, "price ");
    StartsWithCIHead(t, "by negotiation");
    StartsWithCIHead(t, "by negotiaton");
    StartsWithCIHead(t, "by negotation");
  }

  /** Off-plan listings keep their prices, whatever else the text says. */
  lemma OffPlanExample()
    ensures DeduceSaleType("$799,990", false, true) == OffPlan(Some([799990]), false)
  {
    assert Grouped(799990) == "799,990" by {
      assert Grouped(799) == "799";
      assert Pad3(990) == "990";
    }
    assert "" + DollarList([799990], "") + "" == "$799,990";
    DollarPricesRoundTrip("", [799990], "", "", SaleMinPrice);
  }

  /** Rents "$400" and "$99 per week": a dollar price is never floored. */
  lemma DollarRentExamples()
    ensures DeduceRentalType("$400", false) == Rental([400], false)
    ensures DeduceRentalType("$99 per week", false) == Rental([99], false)
  {
    assert Grouped(400) == "400";
    assert Grouped(99) == "99";
    assert "" + DollarList([400], "") + "" == "$400";
    DollarPricesRoundTrip("", [400], "", "", RentalMinPrice);
    assert "" + DollarList([99], "") + " per week" == "$99 per week";
    DollarPricesRoundTrip("", [99], "", " per week", RentalMinPrice);
  }

  /** The bare "20" falls below the rental floor, and the text is kept. */
  lemma RentBelowFloorExample()
    ensures DeduceRentalType("20", false) == RentalTypeParseFailed("20")
  {
    assert Grouped(20) == "20";
    assert "" + Grouped(20) + "" == "20";
    BarePriceRoundTrip("", 20, "", RentalMinPrice);
    StartsWithCIHead("20", "price ");
    StartsWithCIHead("20", "by negotiation");
    StartsWithCIHead("20", "by negotiaton");
    StartsWithCIHead("20", "by negotation");
  }

  /** The floors differ: "400" is a rent but not a sale price. */
  lemma FloorsDiffer()
    ensures DeduceSaleType("400", false, false) == SaleTypeParseFailed
    ensures DeduceRentalType("400", false) == Rental([400], false)
  {
    assert Grouped(400) == "400";
    assert "" + Grouped(400) + "" == "400";
    BarePriceRoundTrip("", 400, "", SaleMinPrice);
    BarePriceRoundTrip("", 400, "", RentalMinPrice);
    var t := "400";
    StartsWithCIHead(t, "auction");
    StartsWithCIHead(t, "tender");
    StartsWithCIHead(t, "price ");
    StartsWithCIHead(t, "by negotiation");
    StartsWithCIHead(t, "by negotiaton");
    StartsWithCIHead(t, "by negotation");
    StartsWithCIHead(t, "contact agent");
  }
}

=== FILE: sale_types.dfy ===
/** How a listing is being sold or let, deduced from its caption text:
    `deduce_sale_type` and `deduce_rental_type`. Each is a chain of tests in
    a fixed order, and the first test that passes decides the type. */
module SaleTypes {
  import opened Wrappers
  import opened Text
  import opened Prices
  import opened Captions
  import opened PriceLetters
  import opened PriceText

  /** The sale types of a sale listing. Every type but the last two carries
      the "under contract" flag of the listing. */
  datatype SaleType =
    | OffPlan(offPlanPrices: Option<seq<nat>>, underContract: bool)
    | Auction(underContract: bool)
    | Tender(underContract: bool)
    | Negotiation(underContract: bool)
    | PrivateTreaty(prices: seq<nat>, underContract: bool)
    | ContactAgent(underContract: bool)
    | UnableToFindSaleTypeText
    | SaleTypeParseFailed
  {
    predicate HasFlag() {
      !UnableToFindSaleTypeText? && !SaleTypeParseFailed?
    }
  }

  /** The types of a rental listing. */
  datatype RentalType =
    | Rental(rent: seq<nat>, underApplication: bool)
    | RentalNegotiation(underApplication: bool)
    | RentalUnderApplication
    | RentalTypeParseFailed(text: string)

  // ---------------------------------------------------------------------
  // Negotiation

  /** `re.match('(?i)(price )?by negotiation', t)`: the optional group is
      tried first and skipped when the rest does not follow it. */
  predicate ByNegotiation(t: string) {
    || (StartsWithCI(t, "price ") && StartsWithCI(t[6..], "by negotiation"))
    || StartsWithCI(t, "by negotiation")
  }

  /** `check_for_sale_by_negotiation`, which also accepts the misspellings
      "by negotiaton" and "by negotation". */
  predicate IsNegotiation(t: string) {
    ByNegotiation(t) || StartsWithCI(t, "by negotiaton") || StartsWithCI(t, "by negotation")
  }

  /** Every opening that counts as "by negotiation". */
  const NegotiationPhrases: seq<string> :=
    ["by negotiation", "price by negotiation", "by negotiaton", "by negotation"]

  /** A text begins with `a + b` exactly when it begins with `a` and `b`
      follows. */
  lemma StartsWithCIConcat(t: string, a: string, b: string)
    requires |a| <= |t|
    ensures StartsWithCI(t, a + b) <==> StartsWithCI(t, a) && StartsWithCI(t[|a|..], b)
  {
    var n := |a| + |b|;
    if n <= |t| {
      var w := Lower(t[..n]);
      assert w[..|a|] == Lower(t[..|a|]);
      assert w[|a|..] == Lower(t[|a|..][..|b|]);
      if w == a + b {
        assert w[..|a|] == a && w[|a|..] == b;
      }
      if w[..|a|] == a && w[|a|..] == b {
        assert w == w[..|a|] + w[|a|..];
      }
    }
  }

  /** The negotiation test holds exactly when the text opens with one of
      the four phrases, in any case. */
  lemma IsNegotiationPhrases(t: string)
    ensures IsNegotiation(t) <==>
              exists i :: 0 <= i < |NegotiationPhrases| && StartsWithCI(t, NegotiationPhrases[i])
  {
    var ps := NegotiationPhrases;
    assert ps[0] == "by negotiation" && ps[2] == "by negotiaton" && ps[3] == "by negotation";
    assert "price " + "by negotiation" == ps[1];
    if 6 <= |t| {
      StartsWithCIConcat(t, "price ", "by negotiation");
    }
    assert StartsWithCI(t, ps[1]) <==> StartsWithCI(t, "price ") && StartsWithCI(t[6..], "by negotiation");
    if IsNegotiation(t) {
      if StartsWithCI(t, ps[0]) {
        assert StartsWithCI(t, ps[0]);
      } else if StartsWithCI(t, ps[1]) {
        assert StartsWithCI(t, ps[1]);
      } else if StartsWithCI(t, ps[2]) {
        assert StartsWithCI(t, ps[2]);
      } else {
        assert StartsWithCI(t, ps[3]);
      }
    }
  }

  // ---------------------------------------------------------------------
  // Sale type

  /** `deduce_sale_type(text, under_contract, off_plan)`. */
  function DeduceSaleType(text: string, underContract: bool, offPlan: bool): (r: SaleType)
    ensures offPlan ==> r == OffPlan(ExtractPrices(text, SaleMinPrice), underContract)
    ensures r.HasFlag() ==> r.underContract == underContract
    ensures r.PrivateTreaty? ==> ExtractPrices(text, SaleMinPrice) == Some(r.prices)
    ensures r == UnableToFindSaleTypeText ==> text == Sentinel
  {
    var prices := ExtractPrices(text, SaleMinPrice);
    if offPlan then OffPlan(prices, underContract)
    else if StartsWithCI(text, "auction") then Auction(underContract)
    else if StartsWithCI(text, "tender") then Tender(underContract)
    else if IsNegotiation(text) then Negotiation(underContract)
    else if prices.Some? then PrivateTreaty(prices.value, underContract)
    else if StartsWithCI(text, "contact agent") then ContactAgent(underContract)
    else if text == Sentinel then UnableToFindSaleTypeText
    else SaleTypeParseFailed
  }

  // ---------------------------------------------------------------------
  // The chains as ordered rule lists

  /** Index of the first true entry, or the length when none is true. */
  function FirstTrue(fired: seq<bool>): (i: nat)
    ensures i <= |fired|
    ensures forall j :: 0 <= j < i ==> !fired[j]
    ensures i < |fired| ==> fired[i]
    decreases |fired|
  {
    if |fired| == 0 || fired[0] then 0 else 1 + FirstTrue(fired[1..])
  }

  /** The first true entry is the one that is true and has none before it. */
  lemma FirstTrueIs(fired: seq<bool>, k: nat)
    requires k <= |fired| && (forall j :: 0 <= j < k ==> !fired[j])
    requires k < |fired| ==> fired[k]
    ensures FirstTrue(fired) == k
  {
  }

  /** The tests of the sale chain once off-plan listings are set aside. */
  datatype SaleRule = AuctionRule | TenderRule | NegotiationRule | PriceRule | ContactAgentRule | SentinelRule

  /** The order in which the sale tests are tried. */
  const SalePriority: seq<SaleRule> :=
    [AuctionRule, TenderRule, NegotiationRule, PriceRule, ContactAgentRule, SentinelRule]

  predicate SaleRuleFires(rule: SaleRule, text: string) {
    match rule
    case AuctionRule => StartsWithCI(text, "auction")
    case TenderRule => StartsWithCI(text, "tender")
    case NegotiationRule => IsNegotiation(text)
    case PriceRule => ExtractPrices(text, SaleMinPrice).Some?
    case ContactAgentRule => StartsWithCI(text, "contact agent")
    case SentinelRule => text == Sentinel
  }

  function SaleRuleOutcome(rule: SaleRule, text: string, underContract: bool): SaleType
    requires SaleRuleFires(rule, text)
  {
    match rule
    case AuctionRule => Auction(underContract)
    case TenderRule => Tender(underContract)
    case NegotiationRule => Negotiation(underContract)
    case PriceRule => PrivateTreaty(ExtractPrices(text, SaleMinPrice).value, underContract)
    case ContactAgentRule => ContactAgent(underContract)
    case SentinelRule => UnableToFindSaleTypeText
  }

  /** Which sale rules fire, in priority order. */
  function SaleFired(text: string): (f: seq<bool>)
    ensures |f| == |SalePriority|
    ensures forall k :: 0 <= k < |f| ==> f[k] == SaleRuleFires(SalePriority[k], text)
  {
    seq(|SalePriority|, k requires 0 <= k < |SalePriority| => SaleRuleFires(SalePriority[k], text))
  }

  /** The outcome of the first sale rule that fires, or a parse failure. */
  function SaleByPriority(text: string, underContract: bool): SaleType {
    var i := FirstTrue(SaleFired(text));
    if i < |SalePriority| then SaleRuleOutcome(SalePriority[i], text, underContract)
    else SaleTypeParseFailed
  }

  /** Apart from off-plan listings, the sale type is the outcome of the
      first rule of the priority list that fires. */
  lemma DeduceSaleTypeByPriority(text: string, underContract: bool)
    ensures DeduceSaleType(text, underContract, false) == SaleByPriority(text, underContract)
  {
    var f := SaleFired(text);
    var k := FirstTrue(f);
    if k < |SalePriority| {
      SaleRuleOutcomeIs(text, underContract, k);
    } else {
      NoSaleRuleFires(text, underContract);
    }
  }

  /** With no rule firing, the text is a parse failure. */
  lemma NoSaleRuleFires(text: string, underContract: bool)
    requires forall j :: 0 <= j < |SalePriority| ==> !SaleRuleFires(SalePriority[j], text)
    ensures DeduceSaleType(text, underContract, false) == SaleTypeParseFailed
  {
    assert SalePriority[0] == AuctionRule && SalePriority[1] == TenderRule && SalePriority[2] == NegotiationRule;
    assert SalePriority[3] == PriceRule && SalePriority[4] == ContactAgentRule && SalePriority[5] == SentinelRule;
  }

  /** The outcome of the rule at position `k` when it is the first to fire. */
  lemma SaleRuleOutcomeIs(text: string, underContract: bool, k: nat)
    requires k < |SalePriority| && SaleRuleFires(SalePriority[k], text)
    requires forall j :: 0 <= j < k ==> !SaleRuleFires(SalePriority[j], text)
    ensures DeduceSaleType(text, underContract, false) == SaleRuleOutcome(SalePriority[k], text, underContract)
  {
    assert SalePriority[0] == AuctionRule && SalePriority[1] == TenderRule && SalePriority[2] == NegotiationRule;
    assert SalePriority[3] == PriceRule && SalePriority[4] == ContactAgentRule && SalePriority[5] == SentinelRule;
  }

  /** A keyword at the start pre-empts any price in the text: "Auction ...
      $500,000" is an auction. */
  lemma KeywordBeatsPrices(text: string, underContract: bool)
    requires StartsWithCI(text, "auction") || StartsWithCI(text, "tender") || IsNegotiation(text)
    ensures !DeduceSaleType(text, underContract, false).PrivateTreaty?
  {
  }

  /** The sale type does not depend on the case of the text, except that
      the sentinel is recognised only as written. */
  lemma DeduceSaleTypeLower(text: string, underContract: bool, offPlan: bool)
    requires text != Sentinel
    ensures DeduceSaleType(Lower(text), underContract, offPlan) == DeduceSaleType(text, underContract, offPlan)
  {
    var l := Lower(text);
    ExtractPricesLower(text, SaleMinPrice);
    StartsWithCILower(text, "auction");
    StartsWithCILower(text, "tender");
    StartsWithCILower(text, "contact agent");
    NegotiationLower(text);
    assert l != Sentinel by {
      if |l| > 0 { assert l[0] == LowerChar(text[0]); }
    }
  }

  lemma NegotiationLower(text: string)
    ensures IsNegotiation(Lower(text)) <==> IsNegotiation(text)
  {
    var l := Lower(text);
    StartsWithCILower(text, "price ");
    StartsWithCILower(text, "by negotiation");
    StartsWithCILower(text, "by negotiaton");
    StartsWithCILower(text, "by negotation");
    if 6 <= |text| {
      assert l[6..] == Lower(text[6..]);
      StartsWithCILower(text[6..], "by negotiation");
    }
  }

  // ---------------------------------------------------------------------
  // Rental type

  /** `deduce_rental_type(text, under_application)`. */
  function DeduceRentalType(text: string, underApplication: bool): (r: RentalType)
    ensures ExtractPrices(text, RentalMinPrice).Some? ==>
              r == Rental(ExtractPrices(text, RentalMinPrice).value, underApplication)
    ensures r.Rental? || r.RentalNegotiation? ==> r.underApplication == underApplication
    ensures r == RentalUnderApplication ==> underApplication
    ensures r.RentalTypeParseFailed? ==> r.text == text && !underApplication
  {
    var prices := ExtractPrices(text, RentalMinPrice);
    if prices.Some? then Rental(prices.value, underApplication)
    else if IsNegotiation(text) then RentalNegotiation(underApplication)
    else if prices.None? && underApplication then RentalUnderApplication
    else RentalTypeParseFailed(text)
  }

  /** The tests of the rental chain. */
  datatype RentalRule = RentRule | RentalNegotiationRule | UnderApplicationRule

  /** The order in which the rental tests are tried. */
  const RentalPriority: seq<RentalRule> := [RentRule, RentalNegotiationRule, UnderApplicationRule]

  predicate RentalRuleFires(rule: RentalRule, text: string, underApplication: bool) {
    match rule
    case RentRule => ExtractPrices(text, RentalMinPrice).Some?
    case RentalNegotiationRule => IsNegotiation(text)
    case UnderApplicationRule => underApplication
  }

  function RentalRuleOutcome(rule: RentalRule, text: string, underApplication: bool): RentalType
    requires RentalRuleFires(rule, text, underApplication)
  {
    match rule
    case RentRule => Rental(ExtractPrices(text, RentalMinPrice).value, underApplication)
    case RentalNegotiationRule => RentalNegotiation(underApplication)
    case UnderApplicationRule => RentalUnderApplication
  }

  /** Which rental rules fire, in priority order. */
  function RentalFired(text: string, underApplication: bool): (f: seq<bool>)
    ensures |f| == |RentalPriority|
    ensures forall k :: 0 <= k < |f| ==> f[k] == RentalRuleFires(RentalPriority[k], text, underApplication)
  {
    seq(|RentalPriority|, k requires 0 <= k < |RentalPriority| =>
          RentalRuleFires(RentalPriority[k], text, underApplication))
  }

  /** The outcome of the first rental rule that fires, or a parse failure
      that keeps the text. */
  function RentalByPriority(text: string, underApplication: bool): RentalType {
    var i := FirstTrue(RentalFired(text, underApplication));
    if i < |RentalPriority| then RentalRuleOutcome(RentalPriority[i], text, underApplication)
    else RentalTypeParseFailed(text)
  }

  /** The rental type is the outcome of the first rule of its own, shorter
      priority list, where prices come first. */
  lemma DeduceRentalTypeByPriority(text: string, underApplication: bool)
    ensures DeduceRentalType(text, underApplication) == RentalByPriority(text, underApplication)
  {
    var f := RentalFired(text, underApplication);
    var k := if f[0] then 0 else if f[1] then 1 else if f[2] then 2 else 3;
    FirstTrueIs(f, k);
  }

  /** The rental chain has no sentinel step: when no caption was found the
      listing is under application or unparsed. */
  lemma RentalSentinel(underApplication: bool)
    ensures DeduceRentalType(Sentinel, underApplication)
            == if underApplication then RentalUnderApplication else RentalTypeParseFailed(Sentinel)
  {
    SentinelHasNoPrice(RentalMinPrice);
    SentinelNotNegotiation();
  }

  lemma SentinelHasNoPrice(floor: int)
    ensures ExtractPrices(Sentinel, floor) == None
  {
    assert NoDigits(Sentinel) by {
      forall i | 0 <= i < |Sentinel| ensures !IsDigit(Sentinel[i]) {
      }
    }
    NoDigitsNoPrices(Sentinel, floor);
  }

  lemma SentinelNotNegotiation()
    ensures !IsNegotiation(Sentinel)
  {
    var ps := ["price ", "by negotiation", "by negotiaton", "by negotation"];
    forall i | 0 <= i < |ps| ensures !StartsWithCI(Sentinel, ps[i]) {
      StartsWithCIHead(Sentinel, ps[i]);
    }
    assert ps[0] == "price " && ps[1] == "by negotiation" && ps[2] == "by negotiaton" && ps[3] == "by negotation";
  }

  /** With a dollar price in the text the floor plays no part, so a sale
      without a keyword and a rental read the same prices. */
  lemma DollarPricesAgree(text: string, underContract: bool, underApplication: bool)
    requires HasToken(text, true)
    requires !StartsWithCI(text, "auction") && !StartsWithCI(text, "tender") && !IsNegotiation(text)
    ensures DeduceSaleType(text, underContract, false) == PrivateTreaty(TextToPrices(text, true), underContract)
    ensures DeduceRentalType(text, underApplication) == Rental(TextToPrices(text, true), underApplication)
  {
  }
}

=== FILE: text.dfy ===
/** Character classes, ASCII lower-casing and Python's `int()` on strings.
    Python's `\d`, `\w`, `str.lower()` and `re.IGNORECASE` also act on
    non-ASCII characters; this model covers the ASCII range only. */
module Text {
  import opened Wrappers

  predicate IsDigit(c: char) {
    '0' <= c <= '9'
  }

  /** Regex `\w` restricted to ASCII. */
  predicate IsWordChar(c: char) {
    'a' <= c <= 'z' || 'A' <= c <= 'Z' || IsDigit(c) || c == '_'
  }

  /** The white space Python's `int()` strips: every character `str.isspace`
      accepts other than the separators U+001C–U+001F. Besides the ASCII ones
      they include the no-break space U+00A0, which `get_text()` produces for
      `&nbsp;`. */
  predicate IsSpace(c: char) {
    || c == ' ' || '\U{9}' <= c <= '\U{d}'
    || c == '\U{85}' || c == '\U{a0}' || c == '\U{1680}' || '\U{2000}' <= c <= '\U{200a}'
    || c == '\U{2028}' || c == '\U{2029}' || c == '\U{202f}' || c == '\U{205f}' || c == '\U{3000}'
  }

  predicate AllDigits(s: string) {
    forall i :: 0 <= i < |s| ==> IsDigit(s[i])
  }

  function DigitValue(c: char): (d: nat)
    requires IsDigit(c)
    ensures d < 10
  {
    (c as int) - ('0' as int)
  }

  function DigitChar(d: nat): (c: char)
    requires d < 10
    ensures IsDigit(c) && DigitValue(c) == d
  {
    (d + '0' as int) as char
  }

  /** The integer a string of decimal digits denotes (leading zeros allowed). */
  function DecimalValue(s: string): nat
    requires AllDigits(s)
    decreases |s|
  {
    if |s| == 0 then 0 else 10 * DecimalValue(s[..|s| - 1]) + DigitValue(s[|s| - 1])
  }

  /** Decimal rendering of a natural number, the inverse of DecimalValue. */
  function ShowNat(n: nat): (s: string)
    ensures |s| > 0 && AllDigits(s)
    decreases n
  {
    if n < 10 then [DigitChar(n)] else ShowNat(n / 10) + [DigitChar(n % 10)]
  }

  lemma {:induction false} DecimalValueOfShowNat(n: nat)
    ensures DecimalValue(ShowNat(n)) == n
    decreases n
  {
    if n >= 10 {
      var s := ShowNat(n);
      assert s[..|s| - 1] == ShowNat(n / 10);
      DecimalValueOfShowNat(n / 10);
    }
  }

  function Pow10(k: nat): (p: nat)
    ensures p > 0
  {
    if k == 0 then 1 else 10 * Pow10(k - 1)
  }

  lemma AllDigitsConcat(a: string, b: string)
    requires AllDigits(a) && AllDigits(b)
    ensures AllDigits(a + b)
  {
    var ab := a + b;
    forall i | 0 <= i < |ab| ensures IsDigit(ab[i]) {
      if i < |a| { assert ab[i] == a[i]; } else { assert ab[i] == b[i - |a|]; }
    }
  }

  /** Reading digits `a` then `b` shifts `a` left by `|b|` places. */
  lemma {:induction false} DecimalValueConcat(a: string, b: string)
    requires AllDigits(a) && AllDigits(b)
    ensures AllDigits(a + b)
    ensures DecimalValue(a + b) == DecimalValue(a) * Pow10(|b|) + DecimalValue(b)
    decreases |b|
  {
    AllDigitsConcat(a, b);
    if |b| == 0 {
      assert a + b == a;
    } else {
      var b' := b[..|b| - 1];
      DecimalValueConcat(a, b');
      var ab := a + b;
      var d := DigitValue(b[|b| - 1]);
      assert ab[..|ab| - 1] == a + b';
      assert ab[|ab| - 1] == b[|b| - 1];
      var x, y, z := DecimalValue(a), Pow10(|b'|), DecimalValue(b');
      assert DecimalValue(a + b') == x * y + z;
      assert DecimalValue(ab) == 10 * DecimalValue(ab[..|ab| - 1]) + DigitValue(ab[|ab| - 1]);
      assert DecimalValue(ab) == 10 * (x * y + z) + d;
      assert DecimalValue(b) == 10 * z + d;
      assert Pow10(|b|) == 10 * y;
      ShiftByTen(x, y, z, d);
    }
  }

  lemma ShiftByTen(x: int, y: int, z: int, d: int)
    ensures 10 * (x * y + z) + d == x * (10 * y) + (10 * z + d)
  {
  }

  function LowerChar(c: char): char {
    if 'A' <= c <= 'Z' then (c as int + 32) as char else c
  }

  function Lower(s: string): (r: string)
    ensures |r| == |s|
    ensures forall i :: 0 <= i < |s| ==> r[i] == LowerChar(s[i])
  {
    seq(|s|, i requires 0 <= i < |s| => LowerChar(s[i]))
  }

  /** `re.match(p, s, re.IGNORECASE)` for a literal lower-case pattern `p`:
      `s` begins with `p` up to ASCII case. */
  predicate StartsWithCI(s: string, p: string) {
    |p| <= |s| && Lower(s[..|p|]) == p
  }

  /** The first character decides a mismatch. */
  lemma StartsWithCIHead(s: string, p: string)
    requires |p| > 0 && |s| > 0 && LowerChar(s[0]) != p[0]
    ensures !StartsWithCI(s, p)
  {
    if |p| <= |s| {
      assert Lower(s[..|p|])[0] == LowerChar(s[0]);
    }
  }

  /** Case-insensitive matching cannot tell a text from its lower-cased form. */
  lemma StartsWithCILower(s: string, p: string)
    ensures StartsWithCI(Lower(s), p) <==> StartsWithCI(s, p)
  {
    if |p| <= |s| {
      assert Lower(Lower(s)[..|p|]) == Lower(s[..|p|]);
    }
  }

  /** First index at or after `i` that is not white space. */
  function SkipSpaces(s: string, i: nat): (r: nat)
    requires i <= |s|
    ensures i <= r <= |s|
    ensures forall m :: i <= m < r ==> IsSpace(s[m])
    ensures r == |s| || !IsSpace(s[r])
    decreases |s| - i
  {
    if i < |s| && IsSpace(s[i]) then SkipSpaces(s, i + 1) else i
  }

  /** Last end at or before `b`, and not before `a`, that follows no white space. */
  function BackSpaces(s: string, a: nat, b: nat): (r: nat)
    requires a <= b <= |s|
    ensures a <= r <= b
    ensures forall m :: r <= m < b ==> IsSpace(s[m])
    ensures r == a || !IsSpace(s[r - 1])
    decreases b
  {
    if b > a && IsSpace(s[b - 1]) then BackSpaces(s, a, b - 1) else b
  }

  /** Where the text `int()` reads begins. */
  function TrimOffset(s: string): nat
    ensures TrimOffset(s) <= |s|
  {
    SkipSpaces(s, 0)
  }

  /** The text `int()` reads once surrounding white space is stripped:
      every character cut away is white space, and what remains neither
      begins nor ends with white space. */
  function Trim(s: string): (t: string)
    ensures TrimOffset(s) + |t| <= |s|
    ensures t == s[TrimOffset(s)..TrimOffset(s) + |t|]
    ensures forall i :: 0 <= i < TrimOffset(s) ==> IsSpace(s[i])
    ensures forall i :: TrimOffset(s) + |t| <= i < |s| ==> IsSpace(s[i])
    ensures |t| == 0 || (!IsSpace(t[0]) && !IsSpace(t[|t| - 1]))
  {
    var a := SkipSpaces(s, 0);
    s[a..BackSpaces(s, a, |s|)]
  }

  /** Python's `int(s)` on a string: optional white space, an optional sign,
      one or more decimal digits, optional white space; anything else raises
      ValueError, modelled as None. */
  function ParseInt(s: string): Option<int> {
    var t := Trim(s);
    if |t| > 1 && (t[0] == '+' || t[0] == '-') && AllDigits(t[1..]) then
      var n: int := DecimalValue(t[1..]);
      Some(if t[0] == '-' then -n else n)
    else if |t| > 0 && AllDigits(t) then
      Some(DecimalValue(t))
    else
      None
  }

  /** A character `int()` never accepts anywhere in its argument. */
  predicate Foreign(c: char) {
    !IsDigit(c) && !IsSpace(c) && c != '+' && c != '-'
  }

  lemma ParseIntDigits(s: string)
    requires AllDigits(s) && |s| > 0
    ensures ParseInt(s) == Some(DecimalValue(s) as int)
  {
    assert !IsSpace(s[0]) && !IsSpace(s[|s| - 1]);
    assert Trim(s) == s;
    assert s[0] != '+' && s[0] != '-';
  }

  /** `int()` raises on any text holding a character outside digits, signs
      and white space (a unit suffix such as "1x" or "11 m2"). */
  lemma ParseIntRejectsForeign(s: string, k: nat)
    requires k < |s| && Foreign(s[k])
    ensures ParseInt(s) == None
  {
    var a := TrimOffset(s);
    var t := Trim(s);
    assert a <= k < a + |t| by {
      assert !IsSpace(s[k]);
    }
    assert t[k - a] == s[k];
    if k - a > 0 {
      assert t[1..][k - a - 1] == s[k];
    }
  }

  /** Round trip: `int()` reads back what ShowNat writes. */
  lemma ParseIntShowNat(n: nat)
    ensures ParseInt(ShowNat(n)) == Some(n as int)
  {
    DecimalValueOfShowNat(n);
    ParseIntDigits(ShowNat(n));
  }

  /** `SkipSpaces` stops at the first character that is not white space. */
  lemma {:induction false} SkipSpacesAt(s: string, i: nat, r: nat)
    requires i <= r <= |s|
    requires forall m :: i <= m < r ==> IsSpace(s[m])
    requires r == |s| || !IsSpace(s[r])
    ensures SkipSpaces(s, i) == r
    decreases r - i
  {
    if i < r {
      SkipSpacesAt(s, i + 1, r);
    }
  }

  /** `BackSpaces` stops after the last character that is not white space. */
  lemma {:induction false} BackSpacesAt(s: string, a: nat, b: nat, r: nat)
    requires a < r <= b <= |s|
    requires forall m :: r <= m < b ==> IsSpace(s[m])
    requires !IsSpace(s[r - 1])
    ensures BackSpaces(s, a, b) == r
    decreases b - r
  {
    if r < b {
      BackSpacesAt(s, a, b - 1, r);
    }
  }

  predicate AllSpaces(s: string) {
    forall i :: 0 <= i < |s| ==> IsSpace(s[i])
  }

  /** Stripping white space from text that has it only around a core
      leaves the core. */
  lemma TrimAround(pre: string, d: string, post: string)
    requires AllSpaces(pre) && AllSpaces(post)
    requires |d| > 0 && !IsSpace(d[0]) && !IsSpace(d[|d| - 1])
    ensures Trim(pre + d + post) == d
  {
    var s := pre + d + post;
    var a := |pre|;
    var e := a + |d|;
    forall m | 0 <= m < a ensures IsSpace(s[m]) {
      assert s[m] == pre[m];
    }
    forall m | e <= m < |s| ensures IsSpace(s[m]) {
      assert s[m] == post[m - e];
    }
    assert s[a] == d[0] && s[e - 1] == d[|d| - 1];
    SkipSpacesAt(s, 0, a);
    BackSpacesAt(s, a, |s|, e);
    assert s[a..e] == d;
  }

  /** `int()` sees only the stripped text. */
  lemma ParseIntTrim(s: string, t: string)
    requires Trim(s) == Trim(t)
    ensures ParseInt(s) == ParseInt(t)
  {
  }

  /** `int()` reads a number through any white space around it, the
      no-break space included: `int("3\u00a0")` is 3. */
  lemma ParseIntSpaced(pre: string, n: nat, post: string)
    requires AllSpaces(pre) && AllSpaces(post)
    ensures ParseInt(pre + ShowNat(n) + post) == Some(n as int)
  {
    var d := ShowNat(n);
    assert IsDigit(d[0]) && IsDigit(d[|d| - 1]);
    TrimAround(pre, d, post);
    assert Trim(d) == d by {
      TrimAround([], d, []);
      assert [] + d + [] == d;
    }
    ParseIntTrim(pre + d + post, d);
    ParseIntShowNat(n);
  }

  /** A value cell ending in `&nbsp;` still reads as a number. */
  lemma NoBreakSpaceExample()
    ensures ParseInt("3\U{a0}") == Some(3)
  {
    ParseIntSpaced([], 3, "\U{a0}");
    assert ShowNat(3) == "3";
    assert [] + "3" + "\U{a0}" == "3\U{a0}";
  }

  /** The file separator U+001C counts as white space for `str.isspace` but not
      for `int()`, so a value cell that begins with it is not a number. */
  lemma FileSeparatorNotStripped()
    ensures ParseInt("\U{1c}5") == None
  {
    ParseIntRejectsForeign("\U{1c}5", 0);
  }
}

=== FILE: wrappers.dfy ===
/** Option and Result: Python's None-or-value returns and raised exceptions
    become explicit values here. */
module Wrappers {

  datatype Option<+T> = None | Some(value: T)

  /** `Err` stands for an exception the scraper raises; `:-` propagates it
      the way an uncaught Python exception leaves the calling function. */
  datatype Result<+T, +E> = Ok(value: T) | Err(error: E) {

    predicate IsFailure() {
      Err?
    }

    function PropagateFailure<U>(): Result<U, E>
      requires Err?
    {
      Err(error)
    }

    function Extract(): T
      requires Ok?
    {
      value
    }
  }
}
